=== FILE: README.md ===
# GrowthForecast client: a Dafny model

This project models the core of `growthforecast-client`, the Ruby client for
the GrowthForecast graphing server, and its command-line front end. The
modelled parts are:

- The client's request shaping: `get_json`, `post_json` and `post_query`. These
  build the request URI and add the keep-alive header.
- Status classification (`handle_error`, `error_message`).
- The escaping of names into path segments (`e`).
- The single-request endpoints.
- The listing helpers: `list_graph`, `list_complex`, `list_section`,
  `list_service`.
- `edit_graph` together with `handle_update_params`.
- `create_complex`.
- On the command-line side:
  - `split_path`;
  - the `exec` guard and the line it writes for a rescued error;
  - the three commands `delete`, `color` and `create_complex`, with their
    helpers `delete_graphs`, `delete_complexes`, `setup_colors` and
    `setup_complex`.

The server is an arbitrary function `Remote<S> = (S, Request) -> (S, Reply)`
of its own state. Every client operation takes the server and its current
state. It returns a `Run`:

- the server's new state;
- every exchange made, in order;
- the value returned, or the error the Ruby code would raise.

Properties are stated against that trace. Examples: which requests were sent,
in what order, and what happens after a failure.

Modules, one per file:

| file | module | what it holds |
|---|---|---|
| `bytes.dfy` | `Bytes` | byte strings, Ruby's `split`, `gsub` of a literal, decimal rendering |
| `escape.dfy` | `Escape` | `CGI.escape` and `e`, `CGI.unescape` and the front end's decoding |
| `http.dfy` | `Http` | JSON values, requests and replies, the error classes, `handle_error` |
| `listing.dfy` | `Listing` | the listing filters and the grouping of `list_section` / `list_service` |
| `client.dfy` | `GrowthForecast` | the client's endpoints, `edit_graph`, `create_complex` |
| `cli.dfy` | `Cli` | `split_path` as written, and a corrected reading |
| `commands.dfy` | `Commands` | `exec`, `delete`, `color`, `create_complex` on the command line |

## Model

| member | source | states |
|---|---|---|
| Http.Classify | lib/growthforecast/client.rb:490-500 | Only status 200 succeeds, and it yields the decoded body. 404 raises NotFound, 409 raises AlreadyExists, and any other status raises a plain client error. Every one of these carries the `error_message` of that reply. A transport exception propagates unchanged. |
| Http.ErrorMessageParses | lib/growthforecast/client.rb:502-504 | The error message always starts with the status field. When the URI and the body hold no tab, it splits on tabs into exactly the status, URI and body fields. |
| Commands.CommandsShaped | lib/growthforecast/client.rb:143-177 | Every request that `delete`, `color` and `create_complex` send carries the Keep-Alive header exactly when keep-alive is on, and no extra header otherwise. This covers the listings, the deletes, `edit_graph`'s fetch and post, and `create_complex`'s lookups and post. Every request goes to a URI that starts with the base URI. |
| Commands.ExecAllShaped | lib/growthforecast/client.rb:143-177 | Any run of guarded calls inside `exec` sends only requests with the client's extra header and a URI under the base URI. |
| Escape.E | lib/growthforecast/client.rb:486-488 | `e` of nil is nil. `e` of a string decodes back to that string and contains no space, `+` or `/`. |
| Escape.EncodeIsBytewise | lib/growthforecast/client.rb:487 | Running `CGI.escape` and then rewriting `+` to `%20` equals escaping each byte on its own. Unreserved bytes stay; every other byte, space included, becomes `%XY`. |
| Escape.EncodeAlphabet | lib/growthforecast/client.rb:487 | Every byte of an escaped name is unreserved, `%` or an upper-case hex digit. |
| Escape.EncodeUnreserved | lib/growthforecast/client.rb:487 | A name made only of unreserved bytes is its own escape. |
| Escape.DecodeEncode | lib/growthforecast/cli.rb:136 | The front end's per-segment decoding inverts the client's `e` for every name. |
| Escape.EncodeInjective | lib/growthforecast/client.rb:487 | Two different names never escape to the same segment. |
| GrowthForecast.SegmentRecovers | lib/growthforecast/client.rb:274 | An interpolated `#{e name}` is empty for nil and is the escape otherwise. Either way it reads back as the name. |
| GrowthForecast.TriplePathRoundTrip | lib/growthforecast/client.rb:307-309 | A `prefix/service/section/graph` path splits on `/` into the prefix's fields plus exactly three segments. Each segment reads back as its own name. |
| GrowthForecast.PathOf | lib/growthforecast/client.rb:273-482 | An endpoint that takes an id uses its fixed prefix followed by the interpolated id. For every other endpoint, the path splits on `/` into the prefix's fields and exactly three segments, and these read back as the service, section and graph names, nil included. |
| GrowthForecast.RequestOf | lib/growthforecast/client.rb:273-482 | Exactly the getters use GET. `post_graph` posts its parameters as a form, and the deletes post an empty form. Every request carries the keep-alive header. Its URI is the base URI followed by the endpoint's path, and for a named endpoint the names read back from that path. |
| GrowthForecast.Call | lib/growthforecast/client.rb:143-177 | A single-request endpoint makes exactly one exchange, and its reply is the server's answer. The result is the classification of that reply. The request carries the client's extra header and goes under the base URI. |
| GrowthForecast.ListGraph | lib/growthforecast/client.rb:192-198 | `list_graph` makes one GET of `/json/list/graph`, and the reply is the server's answer. It succeeds exactly when the reply is a 200 holding an array, and the value is then the listed entries that match every given filter. A failed reply raises that reply's error, and a 200 that is not an array raises a type error. |
| GrowthForecast.ListComplex | lib/growthforecast/client.rb:385-391 | `list_complex` is the same over one GET of `/json/list/complex`: the server's answer, the same success condition, the filtered entries, and the same two errors. |
| Listing.FiltersCompose | lib/growthforecast/client.rb:194-196 | The three successive `select` lines equal one filter that requires every given name to match. |
| Listing.SelectContents | lib/growthforecast/client.rb:194-196 | An entry is kept with all its copies when it matches the filters, and dropped entirely when it does not. |
| Listing.SelectIsSubsequence | lib/growthforecast/client.rb:194-196 | The kept entries keep the server's order. |
| Listing.SelectNoFilters | lib/growthforecast/client.rb:192-197 | Without filters every listed entry is returned. |
| Listing.SelectIdempotent | lib/growthforecast/client.rb:194-196 | Filtering an already filtered listing again changes nothing. |
| GrowthForecast.ListSection | lib/growthforecast/client.rb:213-222 | `list_section` makes exactly the exchange of `list_graph` and leaves the server where that leaves it. It fails exactly when that fails, and with the same error. Otherwise it yields the reference grouping of the listed graphs. |
| Listing.GroupSectionsIsGrouping | lib/growthforecast/client.rb:215-221 | The Hash-building loop computes the reference grouping. That grouping lists each distinct service in first-seen order, each with its distinct sections in first-seen order. |
| Listing.GroupingProperties | lib/growthforecast/client.rb:213-222 | The services are distinct, and a service is listed exactly when some graph has it. Each service's sections are non-empty and distinct. A section appears under a service exactly when some graph has that pair. |
| Listing.DedupFirstSeen | lib/growthforecast/client.rb:236-238 | The keys of an insertion-ordered Hash keep the order in which each was first seen. |
| GrowthForecast.ListService | lib/growthforecast/client.rb:231-239 | `list_service` makes exactly the exchange of `list_graph` and fails with its error. Its services are distinct, and a service is listed exactly when some listed graph has it. |
| GrowthForecast.ServicesAreSectionKeys | lib/growthforecast/client.rb:213-239 | `list_service` succeeds exactly when `list_section` does. It then names exactly the keys of `list_section`, in the same order. |
| GrowthForecast.UpdateParams | lib/growthforecast/client.rb:512-519 | The update keeps every fetched and every new key, plus `meta`. A new parameter overrides the fetched value, and other fetched values are kept. `meta` is blanked unless the caller sets it. |
| GrowthForecast.UpdateParamsIdempotent | lib/growthforecast/client.rb:512-519 | Merging the same parameters a second time changes nothing. |
| GrowthForecast.UpdateParamsIgnoresMeta | lib/growthforecast/client.rb:514-517 | Without a `meta` parameter, the fetched `meta` has no influence on what is posted. |
| GrowthForecast.Fetch | lib/growthforecast/client.rb:366-367 | A fetched graph can be read by key exactly when the reply was a 200 holding an object, and it then reads as that object's fields. A failed reply raises its own error, and a 200 that is not an object raises a type error. |
| GrowthForecast.EditGraph | lib/growthforecast/client.rb:365-370 | `edit_graph` first makes a GET of the graph's `/api` path. Exactly when that yields a property map, it posts the merged properties as JSON to `/json/edit/graph/<id>` and answers what the post answered. Otherwise it raises the fetch's error and posts nothing. Every reply in the trace, the post's included, is the server's answer from the state the previous exchange left (`Http.Answers`). |
| GrowthForecast.EditLastRequestUri | lib/growthforecast/client.rb:132-134 | After `edit_graph`, `last_request_uri` is the edit endpoint of the fetched id when the fetch gave a property map. Otherwise it is the graph's `/api` path, whose fetch raised. |
| GrowthForecast.NameOf | lib/growthforecast/client.rb:486-488 | nil and false give no name, and a string is passed on as it is, to be escaped in its path segment. Any other value raises the type error of `CGI.escape`. |
| GrowthForecast.LookupPath | lib/growthforecast/client.rb:402 | A source graph has a lookup path exactly when its three names can be escaped. The path is the three-name `/api` path. |
| GrowthForecast.Resolve | lib/growthforecast/client.rb:400-411 | The sources are looked up in order, and the lookups stop at the first failure. When they stop early, the error is that of the last fetch if it failed; otherwise it is the error of escaping the next source's names, which sends nothing. The loop succeeds exactly when every source was fetched. It then holds one entry per source, with that source's drawing options and fetched id. Every reply is the server's answer from the state the previous lookup left, and every request carries the client's header under the base URI. |
| GrowthForecast.CreateComplex | lib/growthforecast/client.rb:399-422 | `create_complex` makes one lookup GET per source, in order. It posts to `/json/create/complex` exactly when every lookup fetched a graph. The post carries the target's fields and one data entry per source, and it is the only POST. When nothing is posted, the call fails with the error of the failed fetch, or with the error of escaping the next source's names. Every reply is the server's answer from the state the previous exchange left, and every request carries the client's header under the base URI. |
| Cli.StripLine | lib/growthforecast/cli.rb:135 | `gsub(/.*kw\/?/, '')` on one line removes its longest prefix that ends in the keyword, or in the keyword and a `/`. What is left is a suffix of the line in which the keyword no longer occurs, and a line without the keyword is left unchanged. |
| Cli.SplitPathListRoundTrip | lib/growthforecast/cli.rb:134-137 | A `<prefix>/list/<names…>` page path built with `e` splits back into exactly those names. Conditions: the prefix holds no newline (`.*` stops at one), no escaped name contains `list` or `view_graph`, and the last name is non-empty. The prefix may contain `list`. |
| Cli.SplitPathViewGraphRoundTrip | lib/growthforecast/cli.rb:134-137 | A `<prefix>/view_graph/<names…>` page path splits back into exactly its names. Conditions: the prefix holds no newline, `list` occurs nowhere in the whole path, the prefix included, no escaped name contains `view_graph`, and the last name is non-empty. |
| Cli.SplitPathLosesNamesEndingInList | lib/growthforecast/cli.rb:135 | As written, `/list/playlist` splits into no names at all. Read segment by segment, it gives `playlist`. |
| Cli.SplitPathBySegmentRoundTrip | lib/growthforecast/cli.rb:134-137 | With the page kind matched as a whole segment, every page path reads back as exactly the names it was built from, whatever the names contain. |
| Commands.ReportParses | lib/growthforecast/cli.rb:116 | The line `exec` writes splits on tabs into an empty field, the class, and the fields of the message. |
| Commands.ReportOfHttpError | lib/growthforecast/cli.rb:112-118 | For a rescued HTTP error, the line holds exactly five fields: empty, class, status, URI and body. |
| Commands.ReportsQuiet | lib/growthforecast/cli.rb:112-118 | Nothing is written to standard error exactly when every guarded call succeeded. |
| Commands.ExecAllFollows | lib/growthforecast/cli.rb:66-71 | Guarded calls run one after the other, each from the server state the previous one left. An error in one does not stop the next. |
| Commands.ExecAllAppend | lib/growthforecast/cli.rb:66-78 | Running two lists of guarded calls in turn, the second from the state the first left, is running them as one list. It gives the same exchanges, outcomes and lines on standard error, and the same final server state. |
| Commands.NamesOf | lib/growthforecast/cli.rb:68 | An entry's names can be announced exactly when its service, section and graph names all escape. A failure is a type error. |
| Commands.Perform | lib/growthforecast/cli.rb:66-108 | A removal whose names escape is exactly the client's `delete_graph` or `delete_complex` call for those names: one POST. Otherwise it raises inside `exec` without any request. A recolouring is the client's `edit_graph` of the listed names, and a complex graph is the client's `create_complex` of the sources and target built from the listed graph. Every reply is the server's answer, and every request carries the client's header under the base URI. |
| Commands.RecolorPostsColor | lib/growthforecast/cli.rb:85-93 | A recolouring that gets as far as posting posts the chosen colour, unit `count`, sort 1, adjust `/`, adjustval `1` and an empty `meta`. |
| Commands.CombinePlacement | lib/growthforecast/cli.rb:97-110 | The call `setup_complex` makes for a listed graph looks up each source, in order. Each lookup is at the `/api` path of the listed graph's service and section and the source's own name, and at most one more request follows. When that request is made, it is a POST whose body gives the listed graph's service and section, the new name and sort 1. It also gives one stacked gauge area per source, with the id that source's lookup fetched. Without the POST the call fails: with the error of the lookup that fetched no graph, or, before any lookup, with the error of escaping the listed graph's service or section. |
| Commands.Sweep | lib/growthforecast/cli.rb:66-78 | A sweep first makes the listing GET. When the listing fails, there are no calls, and the command ends with the listing's error: the reply's own error, or a type error for a 200 that is not an array. Otherwise one removal is planned per listed entry, in order. When not silent, the sweep ends at the first entry whose names cannot be announced, and every planned entry could be announced. Each planned removal is then made inside `exec` from the state the previous one left. The exchanges after the listing and the outcomes are exactly those of these calls. |
| Commands.Delete | lib/growthforecast/cli.rb:20-29 | `delete` starts with the graph listing. Every call removes an entry under the page, and no graph is removed after a complex graph. The complex sweep is made from the state the graph sweep left, unless that sweep ended early. |
| Commands.DeleteSequence | lib/growthforecast/cli.rb:24-28 | The graph sweep comes first. If it ended early, the command ends with it; if the graph listing failed, that is with the listing's error and no call. Otherwise the next request is the complex-graph listing. If that fails, the command ends with its error after the graph removals. |
| Commands.Color | lib/growthforecast/cli.rb:38-46 | `color` starts with the graph listing and ends early exactly when that fails, with the listing's error. Otherwise it plans one recolouring per listed entry that has a colour, in order. The planned calls are then made one after the other inside `exec`, and they account for every exchange after the listing. |
| Commands.ColorChoiceExact | lib/growthforecast/cli.rb:81-83 | A graph is recoloured exactly when its name is a key of the colour map, and with that key's colour. |
| Commands.CreateComplexCommand | lib/growthforecast/cli.rb:56-63 | The command starts with the graph listing and ends early exactly when that fails, with the listing's error. Otherwise it draws one complex graph next to each listed graph named like the first source. The planned calls are then made one after the other inside `exec`, and they account for every exchange after the listing. |
| Commands.ComplexChoiceExact | lib/growthforecast/cli.rb:98-101 | A complex graph is drawn next to an entry exactly when the entry is named like the first source, or has no name when there is no source. |
| Commands.ExecAllAnswers | lib/growthforecast/cli.rb:112-118 | Running guarded calls one after the other keeps every reply the server's answer from the state the previous exchange left. |
| Commands.DeleteAnswers | lib/growthforecast/cli.rb:20-29 | Every reply `delete` records is the server's answer from the state the previous exchange left. |
| Commands.PlanMembers | lib/growthforecast/cli.rb:81-83 | A call is planned exactly when some listed entry chose it. |

## Left out

- The HTTP library itself is left out, with its options, authentication, proxies, cookies and redirect callback. A request is a value and the server is a parameter.
- JSON parsing and generation are left out. A reply carries its raw body and the value it decodes to, so malformed JSON is not modelled.
- A body that is not a JSON object is read as a type error wherever the code indexes it. Ruby's exact exception classes and messages for these cases are not reproduced.
- GrowthForecast.NameOf: a name given to `e` that is not a string, nil or false raises one type error with a fixed message. Ruby's message names the value's class, as in `no implicit conversion of true into String`.
- GrowthForecast.ListGraph and GrowthForecast.ListComplex assume a listing is a JSON array, and a body of any other shape fails. In Ruby, a 200 body that is not an array comes back unchanged when no filter is given. A Hash body goes through `Hash#select` when one is given.
- The listing filters, GrowthForecast.ListSection, GrowthForecast.ListService and the commands read a listed entry that is not an object as having no fields, so each name is nil. Ruby raises for an array, integer or nil entry and indexes into a string entry.
- Http.Classify: the URI in the error message is the string the request was built from. Ruby prints the HTTP library's parsed request URI, which drops a default port such as `:80`; the front end always writes the port into the base URI.
- Numbers are integers. Floating-point values are left out.
- Text is bytes. Ruby's encodings and any UTF-8 handling are left out.
- Hash keys are strings throughout. The symbol keys of `create_complex`'s payload become the same JSON names.
- Debug output (`pp`) and the stdout announcements are left out. Exception: an announcement whose `e` raises is kept, because it ends `delete`.
- `split_url` and `URI.parse` are left out. The commands take the filters that `split_path` yields.
- Option parsing by Thor is left out.
- `last_response` is left out, as are the attribute proxies. `last_request_uri` is read from a trace (`Http.LastRequestUri`).
- Http.Interpolate renders an array or hash as empty text. Ruby interpolates them in their `inspect` form, such as `[1, 2]`. Only ids are interpolated, in the by-id endpoints and in `edit_graph`, and GrowthForecast ids are integers.
- The GrowthForecast server's behaviour is not modelled. Every property holds for an arbitrary server.
- `delete_complex` follows the code, which posts straight to `/json/delete/complex/<service>/<section>/<graph>`. Its documentation comment describes an id lookup followed by `delete_complex_by_id`.
- Commands.Sweep, Commands.Color and Commands.CreateComplexCommand name the planned calls, not the requests inside each. `Commands.Perform`, `Commands.RecolorPostsColor` and `Commands.CombinePlacement` state those per call.

## Findings

| source | as written | input that shows it | evidently intended | confidence | as-written member | corrected member |
|---|---|---|---|---|---|---|
| lib/growthforecast/cli.rb:135 | `gsub(/.*list\/?/, '')` strips through the last `list` anywhere in the path, also inside a name | `/list/playlist` splits into `[]` | `["playlist"]`: the page kind is a whole path segment | not executed | Cli.SplitPathLosesNamesEndingInList | Cli.SplitPathBySegmentRoundTrip |

=== FILE: bytes.dfy ===
/** Byte strings and the few Ruby string operations the client and the
    command-line front end rely on: `split`, `gsub` with a literal pattern,
    `tr` of one character, and integer interpolation. */
module Bytes {

  /** One byte, written as the character with that code, so that literals
      such as "meta" can be used directly as byte strings. */
  type Octet = c: char | c as int < 256 witness 'a'

  /** The bytes of a Ruby string (its UTF-8 encoding). */
  type Text = seq<Octet>

  datatype Option<+T> = None | Some(value: T)

  // ---------------------------------------------------------------------------
  // Splitting on a one-byte separator
  // ---------------------------------------------------------------------------

  /** Inverse of `Fields`: the fields glued together with `sep`. */
  function Join(fs: seq<Text>, sep: Octet): Text
  {
    if |fs| == 0 then []
    else if |fs| == 1 then fs[0]
    else fs[0] + [sep] + Join(fs[1..], sep)
  }

  /** All fields of `s` between occurrences of `sep`, empty ones included
      (Ruby's `s.split(sep, -1)`). */
  function Fields(s: Text, sep: Octet): (r: seq<Text>)
    ensures |r| >= 1
    ensures forall i :: 0 <= i < |r| ==> sep !in r[i]
    ensures Join(r, sep) == s
  {
    if |s| == 0 then [[]]
    else
      var rest := Fields(s[1..], sep);
      if s[0] == sep then
        assert [[]] + rest == [[]] + [rest[0]] + rest[1..];
        [[]] + rest
      else
        var r := [[s[0]] + rest[0]] + rest[1..];
        assert r[1..] == rest[1..];
        assert s == [s[0]] + s[1..];
        r
  }

  lemma {:induction false} FieldsWithoutSep(x: Text, sep: Octet)
    requires sep !in x
    ensures Fields(x, sep) == [x]
  {
    if |x| > 0 {
      FieldsWithoutSep(x[1..], sep);
      assert [x[0]] + x[1..] == x;
    }
  }

  lemma {:induction false} FieldsAfterField(x: Text, sep: Octet, y: Text)
    requires sep !in x
    ensures Fields(x + [sep] + y, sep) == [x] + Fields(y, sep)
  {
    if |x| == 0 {
      assert x + [sep] + y == [sep] + y;
      assert ([sep] + y)[1..] == y;
    } else {
      FieldsAfterField(x[1..], sep, y);
      assert (x + [sep] + y)[1..] == x[1..] + [sep] + y;
      assert [x[0]] + x[1..] == x;
    }
  }

  /** Splitting at a separator splits the two sides independently. */
  lemma {:induction false} FieldsAppend(x: Text, sep: Octet, y: Text)
    ensures Fields(x + [sep] + y, sep) == Fields(x, sep) + Fields(y, sep)
    decreases |x|
  {
    var k := IndexOf(x, sep);
    if k == |x| {
      assert x[..k] == x;
      FieldsWithoutSep(x, sep);
      FieldsAfterField(x, sep, y);
    } else {
      var x1, x2 := x[..k], x[k + 1..];
      assert x == x1 + [sep] + x2;
      var z := x2 + [sep] + y;
      assert x + [sep] + y == x1 + [sep] + z;
      FieldsAppend(x2, sep, y);
      FieldsAfterField(x1, sep, z);
      FieldsAfterField(x1, sep, x2);
      var f2, fy := Fields(x2, sep), Fields(y, sep);
      calc {
        Fields(x + [sep] + y, sep);
        Fields(x1 + [sep] + z, sep);
        [x1] + Fields(z, sep);
        [x1] + (f2 + fy);
        { AppendAssoc([x1], f2, fy); }
        ([x1] + f2) + fy;
        Fields(x1 + [sep] + x2, sep) + fy;
        Fields(x, sep) + fy;
      }
    }
  }

  /** Concatenation is associative (stated generically, so that the solver
      does not compare the elements themselves). */
  lemma AppendAssoc<T>(a: seq<T>, b: seq<T>, c: seq<T>)
    ensures a + (b + c) == (a + b) + c
  {
  }

  /** The position of the first `b` in `x`, or `|x|` when there is none. */
  function IndexOf(x: Text, b: Octet): (k: nat)
    ensures k <= |x|
    ensures k < |x| ==> x[k] == b
    ensures b !in x[..k]
  {
    if |x| == 0 || x[0] == b then 0
    else
      var k := IndexOf(x[1..], b);
      assert x[..k + 1] == [x[0]] + x[1..][..k];
      k + 1
  }

  /** Splitting recovers exactly the fields that were joined, provided none
      of them contains the separator. */
  lemma {:induction false} FieldsOfJoin(fs: seq<Text>, sep: Octet)
    requires |fs| >= 1
    requires forall i :: 0 <= i < |fs| ==> sep !in fs[i]
    ensures Fields(Join(fs, sep), sep) == fs
  {
    if |fs| == 1 {
      FieldsWithoutSep(fs[0], sep);
    } else {
      FieldsOfJoin(fs[1..], sep);
      FieldsAfterField(fs[0], sep, Join(fs[1..], sep));
      assert [fs[0]] + fs[1..] == fs;
    }
  }

  /** Ruby's `s.split(sep)`: the fields, with trailing empty fields removed. */
  function RubySplit(s: Text, sep: Octet): (r: seq<Text>)
    ensures |r| <= |Fields(s, sep)|
    ensures r == Fields(s, sep)[..|r|]
    ensures forall i :: |r| <= i < |Fields(s, sep)| ==> Fields(s, sep)[i] == []
    ensures r == [] || r[|r| - 1] != []
  {
    DropTrailingEmpty(Fields(s, sep))
  }

  function DropTrailingEmpty(fs: seq<Text>): (r: seq<Text>)
    ensures |r| <= |fs| && r == fs[..|r|]
    ensures forall i :: |r| <= i < |fs| ==> fs[i] == []
    ensures r == [] || r[|r| - 1] != []
  {
    if |fs| == 0 then []
    else if fs[|fs| - 1] == [] then DropTrailingEmpty(fs[..|fs| - 1])
    else fs
  }

  // ---------------------------------------------------------------------------
  // gsub with a literal pattern, tr of one byte
  // ---------------------------------------------------------------------------

  /** Ruby's `s.gsub(pat, rep)` for a literal, non-empty pattern: matches are
      found left to right and never overlap. */
  function ReplaceAll(s: Text, pat: Text, rep: Text): Text
    requires |pat| > 0
    decreases |s|
  {
    if |s| == 0 then []
    else if pat <= s then rep + ReplaceAll(s[|pat|..], pat, rep)
    else [s[0]] + ReplaceAll(s[1..], pat, rep)
  }

  /** For a one-byte pattern, replacement works piece by piece. */
  lemma {:induction false} ReplaceOneByteAppend(x: Text, y: Text, p: Octet, rep: Text)
    ensures ReplaceAll(x + y, [p], rep) == ReplaceAll(x, [p], rep) + ReplaceAll(y, [p], rep)
  {
    if |x| > 0 {
      ReplaceOneByteAppend(x[1..], y, p, rep);
      assert (x + y)[1..] == x[1..] + y;
      assert [p] <= x + y <==> [p] <= x;
    } else {
      assert x + y == y;
    }
  }

  /** Ruby's `s.tr(from, to)` for single bytes. */
  function Translate(s: Text, from: Octet, to: Octet): (r: Text)
    ensures |r| == |s|
    ensures forall i :: 0 <= i < |s| ==> r[i] == if s[i] == from then to else s[i]
  {
    if |s| == 0 then [] else [if s[0] == from then to else s[0]] + Translate(s[1..], from, to)
  }

  // ---------------------------------------------------------------------------
  // Occurrences of a keyword
  // ---------------------------------------------------------------------------

  /** `kw` occurs in `s` starting at index `i`. */
  predicate OccursAt(s: Text, kw: Text, i: int)
  {
    0 <= i && i + |kw| <= |s| && s[i..i + |kw|] == kw
  }

  /** `kw` occurs nowhere in `s`. */
  ghost predicate Absent(s: Text, kw: Text)
  {
    forall j :: !OccursAt(s, kw, j)
  }

  /** The start of the last occurrence of `kw` in `s`, if there is one. */
  function LastOccurrence(s: Text, kw: Text): (r: Option<nat>)
    ensures r.Some? ==> OccursAt(s, kw, r.value)
    ensures r.Some? ==> forall j :: r.value < j ==> !OccursAt(s, kw, j)
    ensures r.None? ==> forall j :: !OccursAt(s, kw, j)
    decreases |s|
  {
    if |s| < |kw| then None
    else if s[|s| - |kw|..] == kw then Some(|s| - |kw|)
    else
      var r := LastOccurrence(s[..|s| - 1], kw);
      assert forall j :: OccursAt(s, kw, j) && j != |s| - |kw| ==> OccursAt(s[..|s| - 1], kw, j) by {
        forall j | OccursAt(s, kw, j) && j != |s| - |kw|
          ensures OccursAt(s[..|s| - 1], kw, j)
        {
          assert s[..|s| - 1][j..j + |kw|] == s[j..j + |kw|];
        }
      }
      r
  }

  // ---------------------------------------------------------------------------
  // Integer interpolation
  // ---------------------------------------------------------------------------

  predicate IsDigit(c: Octet)
  {
    '0' <= c <= '9'
  }

  function Digits(n: nat): (r: Text)
    ensures |r| >= 1 && forall i :: 0 <= i < |r| ==> IsDigit(r[i])
    ensures n > 0 ==> r[0] != '0'
  {
    var d := ('0' as int + n % 10) as char;
    if n < 10 then [d] else Digits(n / 10) + [d]
  }

  /** Ruby's `"#{n}"` for an Integer: optional minus sign, then decimal
      digits without leading zeros. */
  function Decimal(n: int): (r: Text)
    ensures |r| >= 1 && (r[0] == '-' <==> n < 0)
    ensures forall i :: 0 < i < |r| ==> IsDigit(r[i])
  {
    if n < 0 then ['-'] + Digits(-n) else Digits(n)
  }
}

=== FILE: cli.dfy ===
/** The command-line front end's `split_path`: reading a GrowthForecast page
    path back into the names it shows. */
module Cli {
  import opened Bytes
  import Escape

  // ---------------------------------------------------------------------------
  // split_path
  // ---------------------------------------------------------------------------

  /** Drop one leading `/`, if there is one (the `\/?` of the pattern). */
  function AfterSlash(s: Text): Text
  {
    if |s| > 0 && s[0] == '/' then s[1..] else s
  }

  /** `p` ends with `kw`, or with `kw` and one `/`: the pattern `.*kw\/?`
      matches the whole of `p` (within one line). */
  predicate MatchedThrough(p: Text, kw: Text)
  {
    OccursAt(p, kw, |p| - |kw|) || (|p| > 0 && p[|p| - 1] == '/' && OccursAt(p, kw, |p| - 1 - |kw|))
  }

  /** `line.gsub(/.*kw\/?/, '')` on one line: the greedy `.*` reaches the
      last occurrence of `kw`, which goes together with everything before it
      and one `/` after it. The part removed is the longest prefix of the
      line that the pattern matches in full, and what is left is a suffix
      in which `kw` no longer occurs. */
  function StripLine(line: Text, kw: Text): (r: Text)
    requires |kw| > 0
    ensures |r| <= |line| && r == line[|line| - |r|..]
    ensures Absent(r, kw)
    ensures Absent(line, kw) ==> r == line
    ensures !Absent(line, kw) ==> MatchedThrough(line[..|line| - |r|], kw)
    ensures forall j :: |line| - |r| < j <= |line| ==> !MatchedThrough(line[..j], kw)
  {
    match LastOccurrence(line, kw)
    case None =>
      NoLongerMatch(line, kw, 0);
      line
    case Some(i) =>
      StripAtLast(line, kw, i);
      AfterSlash(line[i + |kw|..])
  }

  /** Stripping through the last occurrence, at `i`, and one `/` after it. */
  lemma StripAtLast(line: Text, kw: Text, i: nat)
    requires |kw| > 0 && OccursAt(line, kw, i)
    requires forall j :: i < j ==> !OccursAt(line, kw, j)
    ensures var r := AfterSlash(line[i + |kw|..]);
      && |r| <= |line| && r == line[|line| - |r|..]
      && Absent(r, kw)
      && MatchedThrough(line[..|line| - |r|], kw)
      && forall j :: |line| - |r| < j <= |line| ==> !MatchedThrough(line[..j], kw)
  {
    var r := AfterSlash(line[i + |kw|..]);
    var d := |line| - |r|;
    assert line[..d] + r == line;
    forall j ensures !OccursAt(r, kw, j) {
      OccursShifted(line[..d], r, kw, j);
    }
    assert d == if i + |kw| < |line| && line[i + |kw|] == '/' then i + |kw| + 1 else i + |kw|;
    assert line[..d][i..i + |kw|] == line[i..i + |kw|];
    NoLongerMatch(line, kw, d);
  }

  /** When every occurrence of `kw` ends by `d`, and one ending at `d` is
      not followed by `/`, no prefix longer than `d` is matched in full. */
  lemma NoLongerMatch(line: Text, kw: Text, d: nat)
    requires |kw| > 0 && d <= |line|
    requires forall k :: OccursAt(line, kw, k) ==> k + |kw| <= d && (k + |kw| == d && d < |line| ==> line[d] != '/')
    ensures forall j :: d < j <= |line| ==> !MatchedThrough(line[..j], kw)
  {
    forall j | d < j <= |line| ensures !MatchedThrough(line[..j], kw) {
      OccursInPrefix(line, j, kw, j - |kw|);
      OccursInPrefix(line, j, kw, j - 1 - |kw|);
    }
  }

  /** `gsub(/.*kw\/?/, '')` on a whole string: `.` does not match a line
      break, so every line is stripped on its own. */
  function Strip(s: Text, kw: Text): (r: Text)
    requires |kw| > 0
    ensures '\n' !in s ==> r == StripLine(s, kw)
  {
    if '\n' !in s then
      FieldsWithoutSep(s, '\n');
      StripLine(s, kw)
    else Join(StripLines(Fields(s, '\n'), kw), '\n')
  }

  function StripLines(lines: seq<Text>, kw: Text): (r: seq<Text>)
    requires |kw| > 0
    ensures |r| == |lines| && forall i :: 0 <= i < |lines| ==> r[i] == StripLine(lines[i], kw)
  {
    if |lines| == 0 then [] else [StripLine(lines[0], kw)] + StripLines(lines[1..], kw)
  }

  /** `CGI.unescape(p.gsub('%20', '+'))` of every piece. */
  function DecodeAll(ps: seq<Text>): (r: seq<Text>)
    ensures |r| == |ps| && forall i :: 0 <= i < |ps| ==> r[i] == Escape.Decode(ps[i])
  {
    if |ps| == 0 then [] else [Escape.Decode(ps[0])] + DecodeAll(ps[1..])
  }

  /** `e` of every name. */
  function EncodeAll(names: seq<Text>, tilde: bool): (r: seq<Text>)
    ensures |r| == |names| && forall i :: 0 <= i < |names| ==> r[i] == Escape.Encode(names[i], tilde)
  {
    if |names| == 0 then [] else [Escape.Encode(names[0], tilde)] + EncodeAll(names[1..], tilde)
  }

  /** `split_path`: strip through the last `list`, then through the last
      `view_graph`, split what is left on `/` as Ruby's `split` does, and
      decode every piece. */
  function SplitPath(path: Text): seq<Text>
  {
    SplitAfter(path, "list", "view_graph")
  }

  /** Strip through the last `first`, then through the last `second`, then
      split and decode. */
  function SplitAfter(path: Text, first: Text, second: Text): seq<Text>
    requires |first| > 0 && |second| > 0
  {
    DecodeAll(RubySplit(Strip(Strip(path, first), second), '/'))
  }

  // Facts about keyword occurrences used by the round trips below.

  lemma OccursInSuffix(a: Text, b: Text, kw: Text, k: int)
    requires k >= |a|
    ensures OccursAt(a + b, kw, k) ==> OccursAt(b, kw, k - |a|)
  {
    if OccursAt(a + b, kw, k) {
      assert (a + b)[k..k + |kw|] == b[k - |a|..k - |a| + |kw|];
    }
  }

  lemma OccursInPrefix(s: Text, j: nat, kw: Text, k: int)
    requires j <= |s|
    ensures OccursAt(s[..j], kw, k) ==> OccursAt(s, kw, k)
  {
    if OccursAt(s[..j], kw, k) {
      assert s[..j][k..k + |kw|] == s[k..k + |kw|];
    }
  }

  lemma OccursShifted(a: Text, b: Text, kw: Text, j: int)
    ensures OccursAt(b, kw, j) ==> OccursAt(a + b, kw, |a| + j)
  {
    if OccursAt(b, kw, j) {
      assert (a + b)[|a| + j..|a| + j + |kw|] == b[j..j + |kw|];
    }
  }

  lemma LastOccurrenceAt(s: Text, kw: Text, i: nat)
    requires OccursAt(s, kw, i)
    requires forall j :: i < j ==> !OccursAt(s, kw, j)
    ensures LastOccurrence(s, kw) == Some(i)
  {
    var r := LastOccurrence(s, kw);
    assert r.Some? && !(r.value < i) && !(i < r.value);
  }

  /** A keyword whose first byte occurs nowhere else in it, followed by `/`
      and by text in which it does not occur: stripping the line leaves
      exactly that text. */
  lemma StripBeforeTail(prefix: Text, kw: Text, tail: Text)
    requires |kw| > 0 && kw[0] != '/' && forall k :: 1 <= k < |kw| ==> kw[k] != kw[0]
    requires Absent(tail, kw)
    ensures StripLine(prefix + kw + "/" + tail, kw) == tail
  {
    var head := prefix + kw + "/";
    var s := head + tail;
    var i := |prefix|;
    assert s[i..i + |kw|] == kw;
    forall j | i < j ensures !OccursAt(s, kw, j) {
      if j < |head| {
        assert s[j] == (if j < i + |kw| then kw[j - i] else '/');
        assert s[j] != kw[0];
      } else {
        OccursInSuffix(head, tail, kw, j);
      }
    }
    LastOccurrenceAt(s, kw, i);
    assert s[i + |kw|..] == "/" + tail;
  }

  /** The segments `e` produces contain neither `/` nor a line break. */
  lemma EncodedSegments(names: seq<Text>, tilde: bool)
    ensures forall i :: 0 <= i < |names| ==> '/' !in EncodeAll(names, tilde)[i] && '\n' !in EncodeAll(names, tilde)[i]
    ensures forall i :: 0 <= i < |names| ==> (names[i] != [] ==> EncodeAll(names, tilde)[i] != [])
  {
    forall i | 0 <= i < |names|
      ensures '/' !in EncodeAll(names, tilde)[i] && '\n' !in EncodeAll(names, tilde)[i]
      ensures names[i] != [] ==> EncodeAll(names, tilde)[i] != []
    {
      Escape.EncodeAlphabet(names[i], tilde);
      Escape.DecodeEncode(names[i], tilde);
    }
  }

  lemma JoinAvoids(fs: seq<Text>, sep: Octet, c: Octet)
    requires c != sep && forall i :: 0 <= i < |fs| ==> c !in fs[i]
    ensures c !in Join(fs, sep)
    decreases |fs|
  {
    if |fs| > 1 {
      JoinAvoids(fs[1..], sep, c);
    }
  }

  /** Splitting the joined segments back gives them all, since none contains
      `/` and the last is not empty; decoding then gives the names. */
  lemma SplitJoinedSegments(names: seq<Text>, tilde: bool)
    requires |names| > 0 && names[|names| - 1] != []
    ensures '\n' !in Join(EncodeAll(names, tilde), '/')
    ensures DecodeAll(RubySplit(Join(EncodeAll(names, tilde), '/'), '/')) == names
  {
    var segs := EncodeAll(names, tilde);
    EncodedSegments(names, tilde);
    JoinAvoids(segs, '/', '\n');
    FieldsOfJoin(segs, '/');
    assert DropTrailingEmpty(segs) == segs;
    forall i | 0 <= i < |names| ensures Escape.Decode(segs[i]) == names[i] {
      Escape.DecodeEncode(names[i], tilde);
    }
  }

  /** A line break-free text in which `kw` does not occur is left alone. */
  lemma StripAbsent(s: Text, kw: Text)
    requires |kw| > 0 && '\n' !in s
    requires Absent(s, kw)
    ensures Strip(s, kw) == s
  {
    var r := Strip(s, kw);
    assert r == StripLine(s, kw);
  }

  /** A keyword whose first byte occurs nowhere else in it and is not `/`,
      and the page path segment `/kw/` made of it. */
  ghost predicate Keyword(kw: Text, page: Text)
  {
    && |kw| > 0 && kw[0] != '/' && '\n' !in kw
    && (forall k :: 1 <= k < |kw| ==> kw[k] != kw[0])
    && page == "/" + kw + "/"
  }

  lemma PageKeywords()
    ensures Keyword("list", "/list/") && Keyword("view_graph", "/view_graph/")
  {
    assert "/list/" == "/" + "list" + "/";
    assert "/view_graph/" == "/" + "view_graph" + "/";
  }

  /** Stripping `/kw/` and what precedes it from a single line. */
  lemma StripThrough(prefix: Text, kw: Text, page: Text, tail: Text)
    requires Keyword(kw, page)
    requires '\n' !in prefix && '\n' !in tail
    requires Absent(tail, kw)
    ensures Strip(prefix + page + tail, kw) == tail
  {
    var path := prefix + page + tail;
    assert '\n' !in page;
    assert '\n' !in path;
    assert path == (prefix + "/") + kw + "/" + tail;
    StripBeforeTail(prefix + "/", kw, tail);
  }

  /** The page of the first keyword: whatever precedes it goes, and the rest
      is split and decoded. */
  lemma SplitAfterFirst(prefix: Text, first: Text, page: Text, second: Text, tail: Text)
    requires Keyword(first, page) && |second| > 0
    requires '\n' !in prefix && '\n' !in tail
    requires Absent(tail, first) && Absent(tail, second)
    ensures SplitAfter(prefix + page + tail, first, second) == DecodeAll(RubySplit(tail, '/'))
  {
    StripThrough(prefix, first, page, tail);
    StripAbsent(tail, second);
  }

  /** The page of the second keyword, when the first occurs nowhere. */
  lemma SplitAfterSecond(prefix: Text, first: Text, second: Text, page: Text, tail: Text)
    requires Keyword(second, page) && |first| > 0
    requires '\n' !in prefix && '\n' !in tail
    requires Absent(prefix + page + tail, first) && Absent(tail, second)
    ensures SplitAfter(prefix + page + tail, first, second) == DecodeAll(RubySplit(tail, '/'))
  {
    var path := prefix + page + tail;
    assert '\n' !in page;
    StripAbsent(path, first);
    StripThrough(prefix, second, page, tail);
  }

  /** The page paths `/list/<service>/<section>` (and deeper) read back as
      the names they were built from, whatever precedes `/list/`, provided
      the escaped names themselves contain neither `list` nor `view_graph`. */
  lemma SplitPathListRoundTrip(prefix: Text, names: seq<Text>, tilde: bool)
    requires '\n' !in prefix
    requires |names| > 0 && names[|names| - 1] != []
    requires Absent(Join(EncodeAll(names, tilde), '/'), "list")
    requires Absent(Join(EncodeAll(names, tilde), '/'), "view_graph")
    ensures SplitPath(prefix + "/list/" + Join(EncodeAll(names, tilde), '/')) == names
  {
    SplitJoinedSegments(names, tilde);
    PageKeywords();
    SplitAfterFirst(prefix, "list", "/list/", "view_graph", Join(EncodeAll(names, tilde), '/'));
  }

  /** The same for the page of one graph, `/view_graph/<service>/<section>/<graph>`,
      when `list` occurs nowhere in the path. */
  lemma SplitPathViewGraphRoundTrip(prefix: Text, names: seq<Text>, tilde: bool)
    requires '\n' !in prefix
    requires |names| > 0 && names[|names| - 1] != []
    requires Absent(prefix + "/view_graph/" + Join(EncodeAll(names, tilde), '/'), "list")
    requires Absent(Join(EncodeAll(names, tilde), '/'), "view_graph")
    ensures SplitPath(prefix + "/view_graph/" + Join(EncodeAll(names, tilde), '/')) == names
  {
    SplitJoinedSegments(names, tilde);
    PageKeywords();
    SplitAfterSecond(prefix, "list", "view_graph", "/view_graph/", Join(EncodeAll(names, tilde), '/'));
  }

  /** As written, a name that ends in `list` swallows the path before it:
      the listing page of the service `playlist` reads back as no names. */
  lemma SplitPathLosesNamesEndingInList()
    ensures SplitPath("/list/playlist") == []
    ensures SplitPathBySegment("/list/playlist") == ["playlist"]
  {
    StripPlaylist();
    SplitNothing();
    PlaylistBySegment();
  }

  lemma StripPlaylist()
    ensures Strip("/list/playlist", "list") == []
  {
    var s: Text := "/list/playlist";
    assert s[10..14] == "list";
    LastOccurrenceAt(s, "list", 10);
    assert '\n' !in s;
    assert s[14..] == [];
  }

  lemma SplitNothing()
    ensures Strip([], "view_graph") == [] && RubySplit([], '/') == []
  {
    assert StripLine([], "view_graph") == [];
    assert Fields([], '/') == [[]];
  }

  lemma PlaylistBySegment()
    ensures SplitPathBySegment("/list/playlist") == ["playlist"]
  {
    PlaylistPath();
    SplitPathBySegmentRoundTrip([[]], "list", ["playlist"], false);
  }

  lemma PlaylistPath()
    ensures Join([[]] + ["list"] + EncodeAll(["playlist"], false), '/') == "/list/playlist"
  {
    JoinPlaylist();
    EncodePlaylist();
    assert [[]] + ["list"] + ["playlist"] == [[], "list", "playlist"];
  }

  lemma JoinPlaylist()
    ensures Join([[], "list", "playlist"], '/') == "/list/playlist"
  {
    var fs: seq<Text> := [[], "list", "playlist"];
    assert Join(fs[2..], '/') == "playlist";
    assert Join(fs[1..], '/') == "list" + "/" + "playlist";
  }

  lemma EncodePlaylist()
    ensures EncodeAll(["playlist"], false) == ["playlist"]
  {
    Escape.EncodeUnreserved("playlist", false);
  }

  // ---------------------------------------------------------------------------
  // split_path, reading the page kind as a whole path segment
  // ---------------------------------------------------------------------------

  /** A path segment naming a GrowthForecast page kind. */
  predicate IsPageKind(field: Text)
  {
    field == "list" || field == "view_graph"
  }

  /** The first segment naming a page kind, if any. */
  function FirstPageKind(fs: seq<Text>): (r: Option<nat>)
    ensures r.Some? ==> r.value < |fs| && IsPageKind(fs[r.value])
    ensures r.Some? ==> forall k :: 0 <= k < r.value ==> !IsPageKind(fs[k])
    ensures r.None? ==> forall k :: 0 <= k < |fs| ==> !IsPageKind(fs[k])
  {
    if |fs| == 0 then None
    else if IsPageKind(fs[0]) then Some(0)
    else
      match FirstPageKind(fs[1..])
      case None => None
      case Some(k) => Some(k + 1)
  }

  /** `split_path` with the page kind matched as a whole segment: the names
      are the segments after the first `list` or `view_graph` segment. */
  function SplitPathBySegment(path: Text): seq<Text>
  {
    var fs := Fields(path, '/');
    match FirstPageKind(fs)
    case None => DecodeAll(DropTrailingEmpty(fs))
    case Some(k) => DecodeAll(DropTrailingEmpty(fs[k + 1..]))
  }

  lemma FirstPageKindAt(fs: seq<Text>, i: nat)
    requires i < |fs| && IsPageKind(fs[i])
    requires forall k :: 0 <= k < i ==> !IsPageKind(fs[k])
    ensures FirstPageKind(fs) == Some(i)
  {
    var r := FirstPageKind(fs);
    assert r.Some? && !(r.value < i) && !(i < r.value);
  }

  /** The segments of a page path built from `front`, the page kind and the
      escaped names. */
  lemma PageSegments(front: seq<Text>, kind: Text, names: seq<Text>, tilde: bool)
    requires forall k :: 0 <= k < |front| ==> '/' !in front[k] && !IsPageKind(front[k])
    requires IsPageKind(kind)
    ensures Fields(Join(front + [kind] + EncodeAll(names, tilde), '/'), '/') == front + [kind] + EncodeAll(names, tilde)
    ensures FirstPageKind(front + [kind] + EncodeAll(names, tilde)) == Some(|front|)
  {
    var segs := EncodeAll(names, tilde);
    var fs := front + [kind] + segs;
    EncodedSegments(names, tilde);
    assert '/' !in kind;
    forall k | 0 <= k < |fs| ensures '/' !in fs[k] {
      if k > |front| {
        assert fs[k] == segs[k - |front| - 1];
      }
    }
    FieldsOfJoin(fs, '/');
    FirstPageKindAt(fs, |front|);
  }

  /** Every page path reads back as the names it was built from, whatever
      the names are, as long as no segment before the page kind is itself a
      page kind. */
  lemma SplitPathBySegmentRoundTrip(front: seq<Text>, kind: Text, names: seq<Text>, tilde: bool)
    requires forall k :: 0 <= k < |front| ==> '/' !in front[k] && !IsPageKind(front[k])
    requires IsPageKind(kind)
    requires |names| > 0 && names[|names| - 1] != []
    ensures SplitPathBySegment(Join(front + [kind] + EncodeAll(names, tilde), '/')) == names
  {
    var segs := EncodeAll(names, tilde);
    var fs := front + [kind] + segs;
    PageSegments(front, kind, names, tilde);
    assert fs[|front| + 1..] == segs;
    FieldsOfJoinDecoded(segs, names, tilde);
  }

  lemma FieldsOfJoinDecoded(segs: seq<Text>, names: seq<Text>, tilde: bool)
    requires segs == EncodeAll(names, tilde)
    requires |names| > 0 && names[|names| - 1] != []
    ensures DecodeAll(DropTrailingEmpty(segs)) == names
  {
    EncodedSegments(names, tilde);
    assert DropTrailingEmpty(segs) == segs;
    forall i | 0 <= i < |names| ensures Escape.Decode(segs[i]) == names[i] {
      Escape.DecodeEncode(names[i], tilde);
    }
  }
}

=== FILE: client.dfy ===
/** `GrowthForecast::Client`: the GrowthForecast API as the client calls it.
    Every operation takes the server as a function of its state and returns
    the new state, the exchanges made in order, and the value or the error
    the Ruby method would have raised. */
module GrowthForecast {
  import opened Bytes
  import opened Http
  import opened Listing
  import Escape

  // ---------------------------------------------------------------------------
  // Paths built from names
  // ---------------------------------------------------------------------------

  /** `"#{e name}"`: the escaped name, or nothing for nil. */
  function Segment(c: Client, name: Option<Text>): (r: Text)
    ensures '/' !in r
  {
    match name
    case None => []
    case Some(t) =>
      Escape.EncodeAlphabet(t, c.tildeUnreserved);
      Escape.Encode(t, c.tildeUnreserved)
  }

  /** A path segment read back names what was put in: nil leaves the segment
      empty, a string decodes to itself. */
  predicate Recovers(segment: Text, name: Option<Text>)
  {
    match name
    case None => segment == []
    case Some(t) => Escape.Decode(segment) == t
  }

  /** A segment is what `e` returns, interpolated, and it reads back as the
      name it was made from. */
  lemma SegmentRecovers(c: Client, name: Option<Text>)
    ensures Segment(c, name) == match Escape.E(name, c.tildeUnreserved) case None => [] case Some(t) => t
    ensures Recovers(Segment(c, name), name)
  {
    if name.Some? {
      Escape.DecodeEncode(name.value, c.tildeUnreserved);
    }
  }

  /** `"#{prefix}/#{e service}/#{e section}/#{e graph}"`. */
  function TriplePath(c: Client, prefix: Text, service: Option<Text>, section: Option<Text>, graph: Option<Text>): Text
  {
    prefix + ['/'] + Join([Segment(c, service), Segment(c, section), Segment(c, graph)], '/')
  }

  /** Splitting a name path on `/` gives the prefix's own fields followed by
      exactly three segments, and each segment reads back as its name: the
      escaping never lets a name spill into a neighbouring segment. */
  lemma TriplePathRoundTrip(c: Client, prefix: Text, service: Option<Text>, section: Option<Text>, graph: Option<Text>)
    ensures prefix <= TriplePath(c, prefix, service, section, graph)
    ensures var fs := Fields(TriplePath(c, prefix, service, section, graph), '/');
      var n := |Fields(prefix, '/')|;
      |fs| == n + 3 && fs[..n] == Fields(prefix, '/')
      && Recovers(fs[n], service) && Recovers(fs[n + 1], section) && Recovers(fs[n + 2], graph)
  {
    var segments := [Segment(c, service), Segment(c, section), Segment(c, graph)];
    FieldsAppend(prefix, '/', Join(segments, '/'));
    FieldsOfJoin(segments, '/');
    SegmentRecovers(c, service);
    SegmentRecovers(c, section);
    SegmentRecovers(c, graph);
  }

  /** `path` splits on `/` into the fields of `prefix` followed by exactly
      three segments, which read back as the three names. */
  predicate SplitsInto(path: Text, prefix: Text, service: Option<Text>, section: Option<Text>, graph: Option<Text>)
  {
    var fs := Fields(path, '/');
    var n := |Fields(prefix, '/')|;
    && prefix <= path
    && |fs| == n + 3 && fs[..n] == Fields(prefix, '/')
    && Recovers(fs[n], service) && Recovers(fs[n + 1], section) && Recovers(fs[n + 2], graph)
  }

  lemma TriplePathSplits(c: Client, prefix: Text, service: Option<Text>, section: Option<Text>, graph: Option<Text>)
    ensures SplitsInto(TriplePath(c, prefix, service, section, graph), prefix, service, section, graph)
  {
    TriplePathRoundTrip(c, prefix, service, section, graph);
  }

  /** Each endpoint's path: its fixed prefix, then the escaped names or the
      interpolated id. */
  function PathOf(c: Client, ep: Endpoint): (p: Text)
    ensures ep.Prefix() <= p
    ensures ep.ById() ==> p == ep.Prefix() + Interpolate(ep.id)
    ensures !ep.ById() ==> p == TriplePath(c, ep.Prefix(), ep.service, ep.section, ep.graph)
    ensures !ep.ById() ==> SplitsInto(p, ep.Prefix(), ep.service, ep.section, ep.graph)
  {
    if ep.ById() then ep.Prefix() + Interpolate(ep.id)
    else
      TriplePathSplits(c, ep.Prefix(), ep.service, ep.section, ep.graph);
      TriplePath(c, ep.Prefix(), ep.service, ep.section, ep.graph)
  }

  // ---------------------------------------------------------------------------
  // The single-request endpoints
  // ---------------------------------------------------------------------------

  /** The API calls that are one request each. Names are nil or strings; ids
      are interpolated as Ruby would. */
  datatype Endpoint =
    | PostGraph(service: Option<Text>, section: Option<Text>, graph: Option<Text>, params: Props)
    | GetGraph(service: Option<Text>, section: Option<Text>, graph: Option<Text>)
    | GetGraphById(id: Value)
    | DeleteGraph(service: Option<Text>, section: Option<Text>, graph: Option<Text>)
    | DeleteGraphById(id: Value)
    | GetComplex(service: Option<Text>, section: Option<Text>, graph: Option<Text>)
    | GetComplexById(id: Value)
    | DeleteComplex(service: Option<Text>, section: Option<Text>, graph: Option<Text>)
    | DeleteComplexById(id: Value)
  {
    predicate ById()
    {
      GetGraphById? || DeleteGraphById? || GetComplexById? || DeleteComplexById?
    }

    /** The endpoints read with `get_json`; all others post with `post_query`. */
    predicate Reads()
    {
      GetGraph? || GetGraphById? || GetComplex? || GetComplexById?
    }

    /** The fixed part of the path. */
    function Prefix(): Text
    {
      match this
      case PostGraph(_, _, _, _) => "/api"
      case GetGraph(_, _, _) => "/api"
      case GetGraphById(_) => "/json/graph/"
      case DeleteGraph(_, _, _) => "/delete"
      case DeleteGraphById(_) => "/json/delete/graph/"
      case GetComplex(_, _, _) => "/json/complex"
      case GetComplexById(_) => "/json/complex/"
      case DeleteComplex(_, _, _) => "/json/delete/complex"
      case DeleteComplexById(_) => "/delete_complex/"
    }
  }

  /** The request each endpoint issues. */
  function RequestOf(c: Client, ep: Endpoint): (req: Request)
    ensures req.header == ExtHeader(c)
    ensures req.verb == Get <==> ep.Reads()
    ensures req.body == (if ep.Reads() then NoBody else if ep.PostGraph? then Form(ep.params) else Form(map[]))
    ensures c.baseUri <= req.uri && req.uri[|c.baseUri|..] == PathOf(c, ep)
    ensures !ep.ById() ==> SplitsInto(req.uri[|c.baseUri|..], ep.Prefix(), ep.service, ep.section, ep.graph)
  {
    var path := PathOf(c, ep);
    if ep.Reads() then GetRequest(c, path)
    else if ep.PostGraph? then PostQueryRequest(c, path, ep.params)
    else PostQueryRequest(c, path, map[])
  }

  /** Call one endpoint. */
  function Call<S>(c: Client, remote: Remote<S>, s: S, ep: Endpoint): (r: Run<S, Value>)
    ensures |r.trace| == 1 && r.trace[0].request == RequestOf(c, ep)
    ensures r.result == Classify(RequestOf(c, ep).uri, r.trace[0].reply)
    ensures Answers(remote, s, r.trace, r.server)
    ensures Shaped(c, r.trace)
  {
    Send(remote, s, RequestOf(c, ep))
  }

  // ---------------------------------------------------------------------------
  // Listings
  // ---------------------------------------------------------------------------

  const GraphListPath: Text := "/json/list/graph"
  const ComplexListPath: Text := "/json/list/complex"

  /** The body was not a JSON array, so `select` is not defined on it. */
  const NotAList: Error := Error(Malformed, "undefined method `select'")

  /** Fetch a list and keep the entries matching every filter given, in
      order: the shared body of `list_graph` and `list_complex`. */
  function FilteredList<S>(c: Client, remote: Remote<S>, s: S, path: Text, f: Filters): (r: Run<S, seq<Value>>)
    ensures |r.trace| == 1 && r.trace[0].request == GetRequest(c, path)
    ensures r.trace[0].reply == remote(s, GetRequest(c, path)).1 && r.server == remote(s, GetRequest(c, path)).0
    ensures var reply := r.trace[0].reply;
      r.result.Ok? <==> reply.Response? && reply.status == 200 && reply.json.Arr?
    ensures r.result.Ok? ==> r.result.value == Select(r.trace[0].reply.json.items, f)
    ensures Classify(r.trace[0].request.uri, r.trace[0].reply).Fail? ==>
      r.result == Fail(Classify(r.trace[0].request.uri, r.trace[0].reply).error)
    ensures Classify(r.trace[0].request.uri, r.trace[0].reply).Ok? && !r.trace[0].reply.json.Arr? ==>
      r.result == Fail(NotAList)
    ensures Answers(remote, s, r.trace, r.server)
    ensures Shaped(c, r.trace)
  {
    var sent := Send(remote, s, GetRequest(c, path));
    match sent.result
    case Fail(err) => Run(sent.server, sent.trace, Fail(err))
    case Ok(body) =>
      if body.Arr? then
        FiltersCompose(body.items, f);
        Run(sent.server, sent.trace, Ok(ApplyFilters(body.items, f)))
      else Run(sent.server, sent.trace, Fail(NotAList))
  }

  /** `list_graph`: the registered graphs matching the filters, in the order
      the server listed them. */
  function ListGraph<S>(c: Client, remote: Remote<S>, s: S, f: Filters): (r: Run<S, seq<Value>>)
    ensures |r.trace| == 1 && r.trace[0].request == GetRequest(c, GraphListPath)
    ensures Answers(remote, s, r.trace, r.server)
    ensures r.result.Ok? ==> r.trace[0].reply.Response? && r.trace[0].reply.json.Arr?
    ensures r.result.Ok? ==> r.result.value == Select(r.trace[0].reply.json.items, f)
    ensures r.result.Ok? <==> Classify(r.trace[0].request.uri, r.trace[0].reply).Ok? && r.trace[0].reply.json.Arr?
    ensures Classify(r.trace[0].request.uri, r.trace[0].reply).Fail? ==>
      r.result == Fail(Classify(r.trace[0].request.uri, r.trace[0].reply).error)
    ensures Classify(r.trace[0].request.uri, r.trace[0].reply).Ok? && !r.trace[0].reply.json.Arr? ==>
      r.result == Fail(NotAList)
  {
    FilteredList(c, remote, s, GraphListPath, f)
  }

  /** `list_complex`: the same for complex graphs. */
  function ListComplex<S>(c: Client, remote: Remote<S>, s: S, f: Filters): (r: Run<S, seq<Value>>)
    ensures |r.trace| == 1 && r.trace[0].request == GetRequest(c, ComplexListPath)
    ensures Answers(remote, s, r.trace, r.server)
    ensures r.result.Ok? ==> r.trace[0].reply.Response? && r.trace[0].reply.json.Arr?
    ensures r.result.Ok? ==> r.result.value == Select(r.trace[0].reply.json.items, f)
    ensures r.result.Ok? <==> Classify(r.trace[0].request.uri, r.trace[0].reply).Ok? && r.trace[0].reply.json.Arr?
    ensures Classify(r.trace[0].request.uri, r.trace[0].reply).Fail? ==>
      r.result == Fail(Classify(r.trace[0].request.uri, r.trace[0].reply).error)
    ensures Classify(r.trace[0].request.uri, r.trace[0].reply).Ok? && !r.trace[0].reply.json.Arr? ==>
      r.result == Fail(NotAList)
  {
    FilteredList(c, remote, s, ComplexListPath, f)
  }

  /** `list_section`: the listed graphs grouped by service, services and
      sections each distinct and in first-seen order. */
  function ListSection<S>(c: Client, remote: Remote<S>, s: S, f: Filters): (r: Run<S, seq<Group>>)
    ensures r.trace == ListGraph(c, remote, s, f).trace && r.server == ListGraph(c, remote, s, f).server
    ensures Answers(remote, s, r.trace, r.server)
    ensures r.result.Ok? <==> ListGraph(c, remote, s, f).result.Ok?
    ensures r.result.Fail? ==> r.result.error == ListGraph(c, remote, s, f).result.error
    ensures r.result.Ok? ==> r.result.value == Grouping(ListGraph(c, remote, s, f).result.value)
  {
    var listed := ListGraph(c, remote, s, f);
    match listed.result
    case Fail(err) => Run(listed.server, listed.trace, Fail(err))
    case Ok(gs) =>
      GroupSectionsIsGrouping(gs);
      Run(listed.server, listed.trace, Ok(GroupSections(gs)))
  }

  /** `list_service`: the distinct services of the listed graphs, each
      listed once, in the order first seen. */
  function ListService<S>(c: Client, remote: Remote<S>, s: S, f: Filters): (r: Run<S, seq<Value>>)
    ensures r.trace == ListGraph(c, remote, s, f).trace && r.server == ListGraph(c, remote, s, f).server
    ensures Answers(remote, s, r.trace, r.server)
    ensures r.result.Ok? <==> ListGraph(c, remote, s, f).result.Ok?
    ensures r.result.Fail? ==> r.result.error == ListGraph(c, remote, s, f).result.error
    ensures r.result.Ok? ==> Distinct(r.result.value)
    ensures r.result.Ok? ==> forall v :: v in r.result.value <==>
      exists g :: g in ListGraph(c, remote, s, f).result.value && ServiceOf(g) == v
  {
    var listed := ListGraph(c, remote, s, f);
    match listed.result
    case Fail(err) => Run(listed.server, listed.trace, Fail(err))
    case Ok(gs) =>
      DedupMembers(ServiceColumn(gs));
      assert forall v :: v in ServiceColumn(gs) <==> exists g :: g in gs && ServiceOf(g) == v by {
        forall v | v in ServiceColumn(gs) ensures exists g :: g in gs && ServiceOf(g) == v {
          var i :| 0 <= i < |gs| && ServiceColumn(gs)[i] == v;
          assert gs[i] in gs;
        }
        forall v | exists g :: g in gs && ServiceOf(g) == v ensures v in ServiceColumn(gs) {
          var g :| g in gs && ServiceOf(g) == v;
          var i :| 0 <= i < |gs| && gs[i] == g;
          assert ServiceColumn(gs)[i] == v;
        }
      }
      Run(listed.server, listed.trace, Ok(ServiceList(gs)))
  }

  /** `list_service` names exactly the keys of `list_section`, in the same
      order. */
  lemma ServicesAreSectionKeys<S>(c: Client, remote: Remote<S>, s: S, f: Filters)
    ensures ListService(c, remote, s, f).result.Ok? <==> ListSection(c, remote, s, f).result.Ok?
    ensures ListService(c, remote, s, f).result.Ok? ==>
      ListService(c, remote, s, f).result.value == Keys(ListSection(c, remote, s, f).result.value)
  {
    var listed := ListGraph(c, remote, s, f);
    if listed.result.Ok? {
      ServicesAreGroupKeys(listed.result.value);
      GroupSectionsIsGrouping(listed.result.value);
    }
  }

  // ---------------------------------------------------------------------------
  // edit_graph
  // ---------------------------------------------------------------------------

  /** `handle_update_params`: the fetched properties overlaid with the new
      ones, and `meta` blanked unless the caller sets it. */
  function UpdateParams(data: Props, params: Props): (u: Props)
    ensures u.Keys == data.Keys + params.Keys + {"meta"}
    ensures forall k :: k in params ==> u[k] == params[k]
    ensures forall k :: k in data && k !in params && k != "meta" ==> u[k] == data[k]
    ensures "meta" !in params ==> u["meta"] == Str("")
  {
    var merged := data + params;
    if "meta" in params then merged else merged["meta" := Str("")]
  }

  /** Merging the same parameters twice changes nothing more. */
  lemma UpdateParamsIdempotent(data: Props, params: Props)
    ensures UpdateParams(UpdateParams(data, params), params) == UpdateParams(data, params)
  {
    var u := UpdateParams(data, params);
    var v := UpdateParams(u, params);
    assert v.Keys == u.Keys;
    forall k | k in u ensures v[k] == u[k] {
    }
  }

  /** The updated properties depend on the fetched `meta` only through the
      caller's choice: without a `meta` parameter it is always blanked. */
  lemma UpdateParamsIgnoresMeta(data: Props, params: Props, meta: Value)
    requires "meta" !in params
    ensures UpdateParams(data["meta" := meta], params) == UpdateParams(data, params)
  {
    var u := UpdateParams(data["meta" := meta], params);
    var v := UpdateParams(data, params);
    assert u.Keys == v.Keys;
    forall k | k in u ensures u[k] == v[k] {
    }
  }

  /** The body was not a JSON object, so it cannot be indexed by key. */
  const NotAnObject: Error := Error(Malformed, "no implicit conversion into Integer")

  /** `get_graph`'s result read as a property map. */
  function Fetch(x: Exchange): (r: Result<Props>)
    ensures r.Ok? <==> Classify(x.request.uri, x.reply).Ok? && x.reply.json.Obj?
    ensures r.Ok? ==> r.value == x.reply.json.fields
    ensures Classify(x.request.uri, x.reply).Fail? ==> r == Fail(Classify(x.request.uri, x.reply).error)
    ensures Classify(x.request.uri, x.reply).Ok? && !x.reply.json.Obj? ==> r == Fail(NotAnObject)
  {
    match Classify(x.request.uri, x.reply)
    case Fail(err) => Fail(err)
    case Ok(v) => if v.Obj? then Ok(v.fields) else Fail(NotAnObject)
  }

  /** The `id` of a fetched graph (nil when the fetch failed). */
  function IdOf(x: Exchange): Value
  {
    match Fetch(x)
    case Ok(m) => Lookup(m, "id")
    case Fail(_) => Null
  }

  /** `r` fetched a graph first and, exactly when that gave a property
      map, posted the merged properties to the edit endpoint of its id,
      answering what the post answered; otherwise it raised the fetch's
      error. */
  predicate Edited<S>(c: Client, params: Props, r: Run<S, Value>)
  {
    && 1 <= |r.trace| <= 2
    && (|r.trace| == 2 <==> Fetch(r.trace[0]).Ok?)
    && (|r.trace| == 1 ==> r.result == Fail(Fetch(r.trace[0]).error))
    && (|r.trace| == 2 ==>
          var data := Fetch(r.trace[0]).value;
          && r.trace[1].request == PostJsonRequest(c, "/json/edit/graph/" + Interpolate(Lookup(data, "id")), Obj(UpdateParams(data, params)))
          && r.result == Classify(r.trace[1].request.uri, r.trace[1].reply))
  }

  /** `edit_graph`: fetch the graph, then post the merged properties to the
      edit endpoint of its id. Nothing is posted when the fetch fails. */
  function EditGraph<S>(c: Client, remote: Remote<S>, s: S, service: Option<Text>, section: Option<Text>, graph: Option<Text>, params: Props): (r: Run<S, Value>)
    ensures Edited(c, params, r)
    ensures r.trace[0].request == GetRequest(c, TriplePath(c, "/api", service, section, graph))
    ensures r.trace[0].reply == remote(s, r.trace[0].request).1
    ensures Answers(remote, s, r.trace, r.server)
    ensures Shaped(c, r.trace)
  {
    var fetched := Send(remote, s, GetRequest(c, TriplePath(c, "/api", service, section, graph)));
    match Fetch(fetched.trace[0])
    case Fail(err) => Run(fetched.server, fetched.trace, Fail(err))
    case Ok(_) =>
      var r := PostEdit(c, remote, fetched.server, params, fetched.trace[0]);
      AnswersAppend(remote, s, fetched.trace, fetched.server, r.trace[1..], r.server);
      assert fetched.trace + r.trace[1..] == r.trace;
      r
  }

  /** The post of `edit_graph` once the fetch gave a property map. */
  function PostEdit<S>(c: Client, remote: Remote<S>, s: S, params: Props, fetched: Exchange): (r: Run<S, Value>)
    requires Fetch(fetched).Ok?
    ensures |r.trace| == 2 && r.trace[0] == fetched
    ensures Edited(c, params, r)
    ensures Answers(remote, s, r.trace[1..], r.server)
  {
    var data := Fetch(fetched).value;
    var path := "/json/edit/graph/" + Interpolate(Lookup(data, "id"));
    var posted := Send(remote, s, PostJsonRequest(c, path, Obj(UpdateParams(data, params))));
    assert [fetched, posted.trace[0]][1..] == posted.trace;
    Run(posted.server, [fetched, posted.trace[0]], posted.result)
  }

  /** `last_request_uri` after `edit_graph`: the edit endpoint of the
      fetched id when the fetch gave a property map, and the graph's `/api`
      path when it raised. */
  lemma EditLastRequestUri<S>(c: Client, remote: Remote<S>, s: S, service: Option<Text>, section: Option<Text>, graph: Option<Text>, params: Props)
    ensures var r := EditGraph(c, remote, s, service, section, graph, params);
      LastRequestUri(r.trace) == Some(c.baseUri +
        if Fetch(r.trace[0]).Ok? then "/json/edit/graph/" + Interpolate(Lookup(Fetch(r.trace[0]).value, "id"))
        else TriplePath(c, "/api", service, section, graph))
  {
    var r := EditGraph(c, remote, s, service, section, graph, params);
    assert |r.trace| == (if Fetch(r.trace[0]).Ok? then 2 else 1);
  }

  // ---------------------------------------------------------------------------
  // create_complex
  // ---------------------------------------------------------------------------

  /** A name as `e` accepts it: nil and false give no name, and a string
      is passed on unescaped (its path segment escapes it); anything else
      makes `CGI.escape` raise. */
  function NameOf(v: Value): (r: Result<Option<Text>>)
    ensures r == Ok(None) <==> v == Null || v == Bool(false)
    ensures forall t :: r == Ok(Some(t)) <==> v == Str(t)
    ensures r.Fail? ==> r.error == NotEscapable && r.error.kind == Malformed
  {
    match v
    case Null => Ok(None)
    case Bool(b) => if b then Fail(NotEscapable) else Ok(None)
    case Str(t) => Ok(Some(t))
    case _ => Fail(NotEscapable)
  }

  /** The type error `CGI.escape` raises for any value that is not a string. */
  const NotEscapable: Error := Error(Malformed, "no implicit conversion into String")

  /** The path of the `get_graph` call for one source graph. */
  function LookupPath(c: Client, from: Props): (r: Result<Text>)
    ensures r.Ok? <==> (NameOf(Lookup(from, "service_name")).Ok? && NameOf(Lookup(from, "section_name")).Ok?
                       && NameOf(Lookup(from, "graph_name")).Ok?)
    ensures r.Ok? ==> r.value == TriplePath(c, "/api", NameOf(Lookup(from, "service_name")).value,
      NameOf(Lookup(from, "section_name")).value, NameOf(Lookup(from, "graph_name")).value)
  {
    match NameOf(Lookup(from, "service_name"))
    case Fail(err) => Fail(err)
    case Ok(service) =>
      match NameOf(Lookup(from, "section_name"))
      case Fail(err) => Fail(err)
      case Ok(section) =>
        match NameOf(Lookup(from, "graph_name"))
        case Fail(err) => Fail(err)
        case Ok(graph) => Ok(TriplePath(c, "/api", service, section, graph))
  }

  /** One entry of the complex graph's `data`: the drawing options of the
      source and the id the server reported for it. */
  function Component(from: Props, id: Value): Value
  {
    Obj(map["gmode" := Lookup(from, "gmode"), "stack" := Lookup(from, "stack"),
            "type" := Lookup(from, "type"), "graph_id" := id])
  }

  /** The entries built from the sources and the lookups answering them. */
  function Components(froms: seq<Props>, trace: seq<Exchange>): (r: seq<Value>)
    ensures |r| == |froms|
    ensures forall i :: 0 <= i < |froms| && i < |trace| ==> r[i] == Component(froms[i], IdOf(trace[i]))
  {
    seq(|froms|, i requires 0 <= i < |froms| => Component(froms[i], if i < |trace| then IdOf(trace[i]) else Null))
  }

  lemma ComponentsCons(froms: seq<Props>, x: Exchange, rest: seq<Exchange>)
    requires |froms| > 0
    ensures Components(froms, [x] + rest) == [Component(froms[0], IdOf(x))] + Components(froms[1..], rest)
  {
    var l, r := Components(froms, [x] + rest), [Component(froms[0], IdOf(x))] + Components(froms[1..], rest);
    forall i | 0 <= i < |froms| ensures l[i] == r[i] {
      if i > 0 {
        assert froms[1..][i - 1] == froms[i];
      }
    }
    SameElements(l, r);
  }

  /** The entries only depend on the exchanges answering the sources. */
  lemma ComponentsPrefix(froms: seq<Props>, trace: seq<Exchange>, more: seq<Exchange>)
    requires |trace| >= |froms|
    ensures Components(froms, trace + more) == Components(froms, trace)
  {
    var l, r := Components(froms, trace + more), Components(froms, trace);
    forall i | 0 <= i < |froms| ensures l[i] == r[i] {
      assert (trace + more)[i] == trace[i];
    }
    SameElements(l, r);
  }

  /** The first exchanges of `trace` are the lookups of the first sources. */
  predicate LookedUp(c: Client, froms: seq<Props>, trace: seq<Exchange>)
  {
    |trace| <= |froms| &&
    forall i :: 0 <= i < |trace| ==>
      LookupPath(c, froms[i]).Ok? && trace[i].request == GetRequest(c, LookupPath(c, froms[i]).value)
  }

  lemma LookedUpCons(c: Client, froms: seq<Props>, x: Exchange, rest: seq<Exchange>)
    requires |froms| > 0 && LookupPath(c, froms[0]).Ok? && x.request == GetRequest(c, LookupPath(c, froms[0]).value)
    requires LookedUp(c, froms[1..], rest)
    ensures LookedUp(c, froms, [x] + rest)
  {
    var t := [x] + rest;
    forall i | 0 <= i < |t|
      ensures LookupPath(c, froms[i]).Ok? && t[i].request == GetRequest(c, LookupPath(c, froms[i]).value)
    {
      if i > 0 {
        assert t[i] == rest[i - 1] && froms[1..][i - 1] == froms[i];
      }
    }
  }

  /** The first `n` lookups of `trace` each fetched a graph. */
  predicate FetchedAll(trace: seq<Exchange>, n: int)
  {
    n <= |trace| && forall i :: 0 <= i < n ==> Fetch(trace[i]).Ok?
  }

  lemma FetchedAllCons(x: Exchange, rest: seq<Exchange>, n: int)
    requires Fetch(x).Ok? && FetchedAll(rest, n)
    ensures FetchedAll([x] + rest, n + 1)
  {
    var t := [x] + rest;
    forall i | 0 <= i < n + 1 ensures Fetch(t[i]).Ok? {
      if i > 0 {
        assert t[i] == rest[i - 1];
      }
    }
  }

  /** Why the lookups in `trace` went no further: the last one fetched no
      graph and `result` is its error, or the next source's names cannot
      be escaped and `result` is that error, or every source was looked
      up and `result` succeeded. */
  predicate Stopped<T>(c: Client, froms: seq<Props>, trace: seq<Exchange>, result: Result<T>)
  {
    var n := |trace|;
    if n > 0 && Fetch(trace[n - 1]).Fail? then result.Fail? && result.error == Fetch(trace[n - 1]).error
    else if n < |froms| then LookupPath(c, froms[n]).Fail? && result.Fail? && result.error == LookupPath(c, froms[n]).error
    else result.Ok?
  }

  /** `r` looked the sources up in order, every lookup but the last one
      fetching a graph, and stopped only for the reason `Stopped` gives; it
      succeeded exactly when every source was fetched, and then holds one
      entry per source with the id fetched for it. */
  predicate Resolved<S>(c: Client, froms: seq<Props>, r: Run<S, seq<Value>>)
  {
    && LookedUp(c, froms, r.trace)
    && FetchedAll(r.trace, |r.trace| - 1)
    && Stopped(c, froms, r.trace, r.result)
    && (r.result.Ok? <==> |r.trace| == |froms| && FetchedAll(r.trace, |froms|))
    && (r.result.Ok? ==> r.result.value == Components(froms, r.trace))
  }

  lemma FetchedAllTail(x: Exchange, rest: seq<Exchange>, n: int)
    ensures FetchedAll([x] + rest, n + 1) ==> FetchedAll(rest, n)
  {
    if FetchedAll([x] + rest, n + 1) {
      forall i | 0 <= i < n ensures Fetch(rest[i]).Ok? {
        assert ([x] + rest)[i + 1] == rest[i];
      }
    }
  }

  /** The loop of `create_complex`: look up every source graph in order,
      stopping at the first failure. */
  function Resolve<S>(c: Client, remote: Remote<S>, s: S, froms: seq<Props>): (r: Run<S, seq<Value>>)
    ensures Resolved(c, froms, r)
    ensures Answers(remote, s, r.trace, r.server)
    ensures Shaped(c, r.trace)
    decreases |froms|
  {
    if |froms| == 0 then Run(s, [], Ok([]))
    else
      match LookupPath(c, froms[0])
      case Fail(err) => Run(s, [], Fail(err))
      case Ok(path) =>
        var first := Send(remote, s, GetRequest(c, path));
        var x := first.trace[0];
        match Fetch(x)
        case Fail(err) =>
          assert !FetchedAll(first.trace, |froms|) by {
            assert !Fetch(first.trace[0]).Ok?;
          }
          Run(first.server, first.trace, Fail(err))
        case Ok(data) =>
          var rest := Resolve(c, remote, first.server, froms[1..]);
          AnswersAppend(remote, s, first.trace, first.server, rest.trace, rest.server);
          ResolvedFirst(c, froms, x, rest)
  }

  /** The lookups of all sources, given the first one's exchange and the
      lookups of the others. */
  function ResolvedFirst<S>(c: Client, froms: seq<Props>, x: Exchange, rest: Run<S, seq<Value>>): (r: Run<S, seq<Value>>)
    requires |froms| > 0 && LookupPath(c, froms[0]).Ok? && x.request == GetRequest(c, LookupPath(c, froms[0]).value)
    requires Fetch(x).Ok?
    requires Resolved(c, froms[1..], rest)
    ensures r.trace == [x] + rest.trace && r.server == rest.server
    ensures Resolved(c, froms, r)
  {
    match rest.result
    case Fail(err) =>
      var r := Run(rest.server, [x] + rest.trace, Fail(err));
      ResolvedConsFail(c, froms, x, rest, r);
      r
    case Ok(cs) =>
      var r := Run(rest.server, [x] + rest.trace, Ok([Component(froms[0], IdOf(x))] + cs));
      ResolvedConsOk(c, froms, x, rest, r);
      r
  }

  lemma ResolvedConsFail<S>(c: Client, froms: seq<Props>, x: Exchange, rest: Run<S, seq<Value>>, r: Run<S, seq<Value>>)
    requires |froms| > 0 && LookupPath(c, froms[0]).Ok? && x.request == GetRequest(c, LookupPath(c, froms[0]).value)
    requires Fetch(x).Ok? && Resolved(c, froms[1..], rest) && rest.result.Fail?
    requires r.trace == [x] + rest.trace && r.result == Fail(rest.result.error)
    ensures Resolved(c, froms, r)
  {
    StoppedCons(c, froms, x, rest.trace, rest.result);
    LookedUpCons(c, froms, x, rest.trace);
    FetchedAllCons(x, rest.trace, |rest.trace| - 1);
    FetchedAllTail(x, rest.trace, |froms| - 1);
  }

  lemma ResolvedConsOk<S>(c: Client, froms: seq<Props>, x: Exchange, rest: Run<S, seq<Value>>, r: Run<S, seq<Value>>)
    requires |froms| > 0 && LookupPath(c, froms[0]).Ok? && x.request == GetRequest(c, LookupPath(c, froms[0]).value)
    requires Fetch(x).Ok? && Resolved(c, froms[1..], rest) && rest.result.Ok?
    requires r.trace == [x] + rest.trace && r.result == Ok([Component(froms[0], IdOf(x))] + rest.result.value)
    ensures Resolved(c, froms, r)
  {
    StoppedCons(c, froms, x, rest.trace, rest.result);
    LookedUpCons(c, froms, x, rest.trace);
    FetchedAllCons(x, rest.trace, |rest.trace| - 1);
    FetchedAllCons(x, rest.trace, |froms| - 1);
    ComponentsCons(froms, x, rest.trace);
  }

  /** A first lookup that fetched a graph does not change why the others
      stopped. */
  lemma StoppedCons<T>(c: Client, froms: seq<Props>, x: Exchange, rest: seq<Exchange>, result: Result<T>)
    requires |froms| > 0 && Fetch(x).Ok? && |rest| <= |froms| - 1
    requires Stopped(c, froms[1..], rest, result)
    ensures Stopped(c, froms, [x] + rest, result)
  {
    var t := [x] + rest;
    if |rest| > 0 {
      assert t[|t| - 1] == rest[|rest| - 1];
    }
    if |t| < |froms| {
      assert froms[|t|] == froms[1..][|rest|];
    }
  }

  /** The body posted to create the complex graph. */
  function ComplexPayload(to: Props, data: seq<Value>): Value
  {
    Obj(map["service_name" := Lookup(to, "service_name"), "section_name" := Lookup(to, "section_name"),
            "graph_name" := Lookup(to, "graph_name"), "description" := Lookup(to, "description"),
            "sort" := Lookup(to, "sort"), "data" := Arr(data)])
  }

  const CreateComplexPath: Text := "/json/create/complex"

  /** `r` made the lookups, every one but the last fetching a graph (the
      first failure stops them), and then, exactly when every source was
      fetched, one post of the complex graph carrying an entry per source;
      it fails whenever it did not post. */
  predicate Created<S>(c: Client, froms: seq<Props>, to: Props, r: Run<S, Value>)
  {
    && |r.trace| <= |froms| + 1
    && FetchedAll(r.trace, |r.trace| - 1)
    && (forall i :: 0 <= i < |r.trace| ==> (r.trace[i].request.verb == Post <==> i == |froms|))
    && (|r.trace| == |froms| + 1 <==> FetchedAll(r.trace, |froms|))
    && (|r.trace| == |froms| + 1 ==>
          && r.trace[|froms|].request == PostJsonRequest(c, CreateComplexPath, ComplexPayload(to, Components(froms, r.trace)))
          && r.result == Classify(r.trace[|froms|].request.uri, r.trace[|froms|].reply))
    && (|r.trace| <= |froms| ==> r.result.Fail? && Stopped(c, froms, r.trace, r.result))
  }

  /** `create_complex`: one lookup per source graph, in order, then a single
      post of the complex graph; a failing lookup stops everything and
      nothing is created. */
  function CreateComplex<S>(c: Client, remote: Remote<S>, s: S, froms: seq<Props>, to: Props): (r: Run<S, Value>)
    ensures LookedUp(c, froms, r.trace[..if |r.trace| <= |froms| then |r.trace| else |froms|])
    ensures Created(c, froms, to, r)
    ensures Answers(remote, s, r.trace, r.server)
    ensures Shaped(c, r.trace)
  {
    var lookups := Resolve(c, remote, s, froms);
    match lookups.result
    case Fail(err) =>
      var r := Run(lookups.server, lookups.trace, Fail(err));
      UnresolvedIsCreated(c, froms, to, lookups, r);
      r
    case Ok(data) => PostComplex(c, remote, s, froms, to, lookups)
  }

  /** Lookups that stopped short end `create_complex` with their error. */
  lemma UnresolvedIsCreated<S>(c: Client, froms: seq<Props>, to: Props, lookups: Run<S, seq<Value>>, r: Run<S, Value>)
    requires Resolved(c, froms, lookups) && lookups.result.Fail?
    requires r.trace == lookups.trace && r.result == Fail(lookups.result.error)
    ensures LookedUp(c, froms, r.trace[..if |r.trace| <= |froms| then |r.trace| else |froms|])
    ensures Created(c, froms, to, r)
  {
    assert r.trace[..|r.trace|] == r.trace;
    forall i | 0 <= i < |r.trace| ensures r.trace[i].request.verb == Get {
    }
  }

  /** The post of the complex graph once every source was fetched. */
  function PostComplex<S>(c: Client, remote: Remote<S>, s: S, froms: seq<Props>, to: Props, lookups: Run<S, seq<Value>>): (r: Run<S, Value>)
    requires Resolved(c, froms, lookups) && lookups.result.Ok?
    requires Answers(remote, s, lookups.trace, lookups.server) && Shaped(c, lookups.trace)
    ensures |r.trace| == |froms| + 1 && LookedUp(c, froms, r.trace[..|froms|])
    ensures Created(c, froms, to, r)
    ensures Answers(remote, s, r.trace, r.server)
    ensures Shaped(c, r.trace)
  {
    var posted := Send(remote, lookups.server, PostJsonRequest(c, CreateComplexPath, ComplexPayload(to, lookups.result.value)));
    var r := Run(posted.server, lookups.trace + posted.trace, posted.result);
    assert r.trace[..|froms|] == lookups.trace && r.trace[|froms|] == posted.trace[0];
    ResolvedIsCreated(c, froms, to, lookups, r);
    AnswersAppend(remote, s, lookups.trace, lookups.server, posted.trace, posted.server);
    ShapedAppend(c, lookups.trace, posted.trace);
    r
  }

  /** Lookups that fetched every source, followed by the post of the
      complex graph built from them. */
  lemma ResolvedIsCreated<S>(c: Client, froms: seq<Props>, to: Props, lookups: Run<S, seq<Value>>, r: Run<S, Value>)
    requires Resolved(c, froms, lookups) && lookups.result.Ok?
    requires |r.trace| == |froms| + 1 && r.trace[..|froms|] == lookups.trace
    requires r.trace[|froms|].request == PostJsonRequest(c, CreateComplexPath, ComplexPayload(to, lookups.result.value))
    requires r.result == Classify(r.trace[|froms|].request.uri, r.trace[|froms|].reply)
    ensures LookedUp(c, froms, r.trace[..|froms|])
    ensures Created(c, froms, to, r)
  {
    assert r.trace == lookups.trace + [r.trace[|froms|]];
    ComponentsPrefix(froms, lookups.trace, [r.trace[|froms|]]);
    forall i | 0 <= i < |froms| ensures r.trace[i] == lookups.trace[i] && Fetch(r.trace[i]).Ok? && r.trace[i].request.verb == Get {
    }
  }
}

=== FILE: commands.dfy ===
/** The command-line front end's commands: `delete`, `color` and
    `create_complex`, each a listing followed by one guarded client call
    (`exec`) per chosen graph. */
module Commands {
  import opened Bytes
  import opened Http
  import opened Listing
  import opened GrowthForecast

  // ---------------------------------------------------------------------------
  // exec: run one guarded call, report what it raised
  // ---------------------------------------------------------------------------

  /** The line `exec` writes to standard error for an error it rescued. */
  function Report(err: Error): Text
  {
    "\tclass:" + err.ClassName() + "\t" + err.message
  }

  /** The line splits on tabs into an empty field, the class and the fields of
      the message, as long as the class name has no tab. */
  lemma ReportParses(err: Error)
    requires '\t' !in err.ClassName()
    ensures Fields(Report(err), '\t') == [[], "class:" + err.ClassName()] + Fields(err.message, '\t')
  {
    var cls: Text := "class:" + err.ClassName();
    assert '\t' !in "class:";
    assert '\t' !in cls;
    assert Report(err) == [] + ['\t'] + (cls + ['\t'] + err.message);
    FieldsAfterField([], '\t', cls + ['\t'] + err.message);
    FieldsAfterField(cls, '\t', err.message);
  }

  /** For an HTTP error the line carries the class, the status, the request
      URI and the body in separate fields. */
  lemma ReportOfHttpError(uri: Text, status: int, raw: Text, json: Value)
    requires status != 200 && '\t' !in uri && '\t' !in raw
    ensures var err := Classify(uri, Response(status, raw, json)).error;
      Fields(Report(err), '\t') == [[], "class:" + err.ClassName(), "status:" + Decimal(status), "uri:" + uri, "message:" + raw]
  {
    var err := Classify(uri, Response(status, raw, json)).error;
    assert '\t' !in err.ClassName();
    ReportParses(err);
    ErrorMessageParses(status, uri, raw);
  }

  /** What a sequence of guarded calls writes to standard error: one line per
      rescued error, in order. */
  function Reports(outcomes: seq<Result<Value>>): (r: seq<Text>)
    ensures |r| <= |outcomes|
  {
    if |outcomes| == 0 then []
    else (if outcomes[0].Fail? then [Report(outcomes[0].error)] else []) + Reports(outcomes[1..])
  }

  /** Nothing is written exactly when every call succeeded. */
  lemma {:induction false} ReportsQuiet(outcomes: seq<Result<Value>>)
    ensures Reports(outcomes) == [] <==> forall i :: 0 <= i < |outcomes| ==> outcomes[i].Ok?
  {
    if |outcomes| > 0 {
      ReportsQuiet(outcomes[1..]);
      assert forall i :: 1 <= i < |outcomes| ==> outcomes[i] == outcomes[1..][i - 1];
    }
  }

  lemma {:induction false} ReportsAppend(a: seq<Result<Value>>, b: seq<Result<Value>>)
    ensures Reports(a + b) == Reports(a) + Reports(b)
  {
    if |a| == 0 {
      assert a + b == b;
    } else {
      var ab := a + b;
      assert ab[0] == a[0];
      assert ab[1..] == a[1..] + b;
      ReportsAppend(a[1..], b);
      var head := if a[0].Fail? then [Report(a[0].error)] else [];
      calc {
        Reports(ab);
        head + Reports(ab[1..]);
        head + (Reports(a[1..]) + Reports(b));
        (head + Reports(a[1..])) + Reports(b);
      }
    }
  }

  function Flatten<T>(xss: seq<seq<T>>): seq<T>
  {
    if |xss| == 0 then [] else xss[0] + Flatten(xss[1..])
  }

  lemma {:induction false} FlattenAppend<T>(a: seq<seq<T>>, b: seq<seq<T>>)
    ensures Flatten(a + b) == Flatten(a) + Flatten(b)
  {
    if |a| == 0 {
      assert a + b == b;
    } else {
      var ab := a + b;
      assert ab[0] == a[0];
      assert ab[1..] == a[1..] + b;
      FlattenAppend(a[1..], b);
      calc {
        Flatten(ab);
        ab[0] + Flatten(ab[1..]);
        a[0] + (Flatten(a[1..]) + Flatten(b));
        (a[0] + Flatten(a[1..])) + Flatten(b);
      }
    }
  }

  lemma FlattenCons<T>(x: seq<T>, xs: seq<seq<T>>)
    ensures Flatten([x] + xs) == x + Flatten(xs)
  {
    assert ([x] + xs)[1..] == xs;
  }

  lemma LastCons<T>(x: T, xs: seq<T>)
    requires |xs| > 0
    ensures ([x] + xs)[|xs|] == xs[|xs| - 1]
  {
  }

  /** A run of guarded calls: the server state before each call and after the
      last, the exchanges of each call, and what each returned or raised. */
  datatype Session<S> = Session(states: seq<S>, traces: seq<seq<Exchange>>, outcomes: seq<Result<Value>>)
  {
    function Final(): S
      requires |states| > 0
    {
      states[|states| - 1]
    }

    function Trace(): seq<Exchange>
    {
      Flatten(traces)
    }

    function Log(): seq<Text>
    {
      Reports(outcomes)
    }
  }

  /** `r` records the calls `actions` starting from `s`, one after the
      other: call `i` runs from state `i` and leaves state `i + 1`. */
  ghost predicate Follows<S, A>(step: (S, A) -> Run<S, Value>, s: S, actions: seq<A>, r: Session<S>)
  {
    && |r.states| == |actions| + 1 && r.states[0] == s
    && |r.traces| == |actions| && |r.outcomes| == |actions|
    && forall i :: 0 <= i < |actions| ==>
      && step(r.states[i], actions[i]).server == r.states[i + 1]
      && step(r.states[i], actions[i]).trace == r.traces[i]
      && step(r.states[i], actions[i]).result == r.outcomes[i]
  }

  /** `list.each { |x| exec { call(x) } }`: every call runs from the state the
      previous one left, and an error in one does not stop the next. */
  function ExecAll<S, A>(step: (S, A) -> Run<S, Value>, s: S, actions: seq<A>): (r: Session<S>)
    ensures |r.states| == |actions| + 1 && r.states[0] == s
    ensures |r.traces| == |actions| && |r.outcomes| == |actions|
    decreases |actions|
  {
    if |actions| == 0 then Session([s], [], [])
    else
      var first := step(s, actions[0]);
      var rest := ExecAll(step, first.server, actions[1..]);
      Session([s] + rest.states, [first.trace] + rest.traces, [first.result] + rest.outcomes)
  }

  /** The calls run one after the other, each from the state the previous
      one left. */
  lemma {:induction false} ExecAllFollows<S, A>(step: (S, A) -> Run<S, Value>, s: S, actions: seq<A>)
    ensures Follows(step, s, actions, ExecAll(step, s, actions))
    decreases |actions|
  {
    if |actions| > 0 {
      var first := step(s, actions[0]);
      var rest := ExecAll(step, first.server, actions[1..]);
      ExecAllFollows(step, first.server, actions[1..]);
      var r := ExecAll(step, s, actions);
      forall i | 1 <= i < |actions|
        ensures step(r.states[i], actions[i]) == step(rest.states[i - 1], actions[1..][i - 1])
        ensures r.states[i + 1] == rest.states[i] && r.traces[i] == rest.traces[i - 1] && r.outcomes[i] == rest.outcomes[i - 1]
      {
      }
    }
  }

  /** Running two lists of calls one after the other is running them
      together: the same calls and outcomes, the same exchanges and lines
      on standard error, and the same final server state. */
  lemma ExecAllAppend<S, A>(step: (S, A) -> Run<S, Value>, s: S, xs: seq<A>, ys: seq<A>)
    ensures var first := ExecAll(step, s, xs);
      var second := ExecAll(step, first.Final(), ys);
      && ExecAll(step, s, xs + ys).traces == first.traces + second.traces
      && ExecAll(step, s, xs + ys).outcomes == first.outcomes + second.outcomes
      && ExecAll(step, s, xs + ys).Trace() == first.Trace() + second.Trace()
      && ExecAll(step, s, xs + ys).Log() == first.Log() + second.Log()
      && ExecAll(step, s, xs + ys).Final() == second.Final()
  {
    var first := ExecAll(step, s, xs);
    var second := ExecAll(step, first.Final(), ys);
    ExecAllAppendCalls(step, s, xs, ys);
    FlattenAppend(first.traces, second.traces);
    ReportsAppend(first.outcomes, second.outcomes);
    ExecAllAppendFinal(step, s, xs, ys);
  }

  lemma {:induction false} ExecAllAppendCalls<S, A>(step: (S, A) -> Run<S, Value>, s: S, xs: seq<A>, ys: seq<A>)
    ensures var first := ExecAll(step, s, xs);
      var second := ExecAll(step, first.Final(), ys);
      && ExecAll(step, s, xs + ys).traces == first.traces + second.traces
      && ExecAll(step, s, xs + ys).outcomes == first.outcomes + second.outcomes
    decreases |xs|
  {
    if |xs| == 0 {
      assert xs + ys == ys;
    } else {
      var x := step(s, xs[0]);
      assert (xs + ys)[0] == xs[0] && (xs + ys)[1..] == xs[1..] + ys;
      ExecAllAppendCalls(step, x.server, xs[1..], ys);
    }
  }

  /** Running two lists leaves the server where the second list leaves it. */
  lemma {:induction false} ExecAllAppendFinal<S, A>(step: (S, A) -> Run<S, Value>, s: S, xs: seq<A>, ys: seq<A>)
    ensures ExecAll(step, s, xs + ys).Final() == ExecAll(step, ExecAll(step, s, xs).Final(), ys).Final()
    decreases |xs|
  {
    if |xs| == 0 {
      assert xs + ys == ys;
    } else {
      var x := step(s, xs[0]);
      assert (xs + ys)[0] == xs[0] && (xs + ys)[1..] == xs[1..] + ys;
      ExecAllAppendFinal(step, x.server, xs[1..], ys);
    }
  }

  // ---------------------------------------------------------------------------
  // The calls the commands make
  // ---------------------------------------------------------------------------

  /** One guarded call, for the listed entry `g` it was chosen for. */
  datatype Action =
    | RemoveGraph(g: Value)                               // delete_graphs
    | RemoveComplex(g: Value)                             // delete_complexes
    | Recolor(g: Value, color: Text)                      // setup_colors
    | Combine(g: Value, fromGraphs: seq<Text>, to: Text)  // setup_complex

  /** The names of a listed entry escaped left to right, as the
      interpolations `#{e graph['service_name']}/...` do; the first that
      cannot be escaped raises. */
  function NamesOf(g: Value): (r: Result<(Option<Text>, Option<Text>, Option<Text>)>)
    ensures r.Ok? <==>
      NameOf(Field(g, "service_name")).Ok? && NameOf(Field(g, "section_name")).Ok? && NameOf(Field(g, "graph_name")).Ok?
    ensures r.Ok? ==>
      r.value == (NameOf(Field(g, "service_name")).value, NameOf(Field(g, "section_name")).value, NameOf(Field(g, "graph_name")).value)
    ensures r.Fail? ==> r.error.kind == Malformed
  {
    match NameOf(Field(g, "service_name"))
    case Fail(err) => Fail(err)
    case Ok(service) =>
      match NameOf(Field(g, "section_name"))
      case Fail(err) => Fail(err)
      case Ok(section) =>
        match NameOf(Field(g, "graph_name"))
        case Fail(err) => Fail(err)
        case Ok(graph) => Ok((service, section, graph))
  }

  /** The properties `color` sets on a graph. */
  function ColorParams(color: Text): Props
  {
    map["color" := Str(color), "unit" := Str("count"), "sort" := Int(1), "adjust" := Str("/"), "adjustval" := Str("1")]
  }

  /** The properties shared by every source of a complex graph drawn for `g`. */
  function SourceBase(g: Value): Props
  {
    map["service_name" := Field(g, "service_name"), "section_name" := Field(g, "section_name"),
        "gmode" := Str("gauge"), "stack" := Bool(true), "type" := Str("AREA")]
  }

  function Sources(g: Value, fromGraphs: seq<Text>): seq<Props>
  {
    seq(|fromGraphs|, i requires 0 <= i < |fromGraphs| => SourceBase(g)["graph_name" := Str(fromGraphs[i])])
  }

  function Target(g: Value, to: Text): Props
  {
    map["service_name" := Field(g, "service_name"), "section_name" := Field(g, "section_name"),
        "graph_name" := Str(to), "sort" := Int(1)]
  }

  lemma SourcesFields(g: Value, fromGraphs: seq<Text>, to: Text)
    ensures |Sources(g, fromGraphs)| == |fromGraphs|
    ensures forall i :: 0 <= i < |fromGraphs| ==>
      var src := Sources(g, fromGraphs)[i];
      && Lookup(src, "service_name") == Field(g, "service_name")
      && Lookup(src, "section_name") == Field(g, "section_name")
      && Lookup(src, "graph_name") == Str(fromGraphs[i])
      && Lookup(src, "gmode") == Str("gauge") && Lookup(src, "stack") == Bool(true) && Lookup(src, "type") == Str("AREA")
    ensures var t := Target(g, to);
      && Lookup(t, "service_name") == Field(g, "service_name")
      && Lookup(t, "section_name") == Field(g, "section_name")
      && Lookup(t, "graph_name") == Str(to) && Lookup(t, "sort") == Int(1) && Lookup(t, "description") == Null
  {
    forall i | 0 <= i < |fromGraphs|
      ensures Sources(g, fromGraphs)[i] == SourceBase(g)["graph_name" := Str(fromGraphs[i])]
    {
    }
  }

  /** A JSON body creating the complex graph `to` next to `g`: same service
      and section, sort 1, no description, and one stacked gauge area per
      source, carrying the id its lookup in `lookups` fetched. */
  predicate PostsComplex(body: Body, g: Value, fromGraphs: seq<Text>, to: Text, lookups: seq<Exchange>)
  {
    && body.Json? && body.value.Obj?
    && var fields := body.value.fields;
    && Lookup(fields, "service_name") == Field(g, "service_name")
    && Lookup(fields, "section_name") == Field(g, "section_name")
    && Lookup(fields, "graph_name") == Str(to)
    && Lookup(fields, "description") == Null
    && Lookup(fields, "sort") == Int(1)
    && Lookup(fields, "data").Arr?
    && var data := Lookup(fields, "data").items;
    && |data| == |fromGraphs|
    && forall i :: 0 <= i < |data| ==>
         && data[i].Obj?
         && Lookup(data[i].fields, "gmode") == Str("gauge")
         && Lookup(data[i].fields, "stack") == Bool(true)
         && Lookup(data[i].fields, "type") == Str("AREA")
         && Lookup(data[i].fields, "graph_id") == (if i < |lookups| then IdOf(lookups[i]) else Null)
  }

  /** `g`'s service and section names, escaped in that order as every
      source's lookup escapes them; the first that cannot be escaped raises. */
  function PlaceOf(g: Value): Result<(Option<Text>, Option<Text>)>
  {
    match NameOf(Field(g, "service_name"))
    case Fail(err) => Fail(err)
    case Ok(service) =>
      match NameOf(Field(g, "section_name"))
      case Fail(err) => Fail(err)
      case Ok(section) => Ok((service, section))
  }

  /** What `setup_complex`'s call for a listed graph `g` did: the `i`-th
      exchange is `get_graph` of source `i` in `g`'s service and section;
      when every lookup succeeded, a post follows that creates the complex
      graph next to `g` from the ids fetched. Otherwise the call failed,
      with the error of the last lookup, which fetched no graph, or, before
      any lookup, with the error of escaping `g`'s service or section. */
  predicate Placed<S>(c: Client, g: Value, fromGraphs: seq<Text>, to: Text, r: Run<S, Value>)
  {
    && |r.trace| <= |fromGraphs| + 1
    && (forall i :: 0 <= i < |r.trace| && i < |fromGraphs| ==> LooksUpSource(c, g, fromGraphs, i, r.trace[i].request))
    && (|r.trace| == |fromGraphs| + 1 ==>
          && r.trace[|fromGraphs|].request.verb == Post
          && PostsComplex(r.trace[|fromGraphs|].request.body, g, fromGraphs, to, r.trace))
    && (|r.trace| <= |fromGraphs| ==>
          && r.result.Fail?
          && if |r.trace| > 0 && Fetch(r.trace[|r.trace| - 1]).Fail? then r.result.error == Fetch(r.trace[|r.trace| - 1]).error
             else |r.trace| == 0 && PlaceOf(g).Fail? && r.result.error == PlaceOf(g).error)
  }

  /** `req` is `get_graph` of source `i` in `g`'s service and section. */
  predicate LooksUpSource(c: Client, g: Value, fromGraphs: seq<Text>, i: nat, req: Request)
    requires i < |fromGraphs|
  {
    && NameOf(Field(g, "service_name")).Ok? && NameOf(Field(g, "section_name")).Ok?
    && req == GetRequest(c, TriplePath(c, "/api", NameOf(Field(g, "service_name")).value,
                                       NameOf(Field(g, "section_name")).value, Some(fromGraphs[i])))
  }

  /** `setup_complex`'s call for a listed graph `g` looks the sources up in
      `g`'s service and section and creates the complex graph next to it. */
  lemma CombinePlacement<S>(c: Client, remote: Remote<S>, s: S, g: Value, fromGraphs: seq<Text>, to: Text)
    ensures Placed(c, g, fromGraphs, to, Perform(c, remote, s, Combine(g, fromGraphs, to)))
  {
    var r := CreateComplex(c, remote, s, Sources(g, fromGraphs), Target(g, to));
    CreatedIsPlaced(c, g, fromGraphs, to, r);
  }

  lemma CreatedIsPlaced<S>(c: Client, g: Value, fromGraphs: seq<Text>, to: Text, r: Run<S, Value>)
    requires LookedUp(c, Sources(g, fromGraphs), r.trace[..if |r.trace| <= |fromGraphs| then |r.trace| else |fromGraphs|])
    requires Created(c, Sources(g, fromGraphs), Target(g, to), r)
    ensures Placed(c, g, fromGraphs, to, r)
  {
    var froms := Sources(g, fromGraphs);
    var n := if |r.trace| <= |froms| then |r.trace| else |froms|;
    forall i | 0 <= i < |r.trace| && i < |fromGraphs|
      ensures LooksUpSource(c, g, fromGraphs, i, r.trace[i].request)
    {
      assert r.trace[..n][i] == r.trace[i];
      SourceLookup(c, g, fromGraphs, i);
    }
    if |r.trace| == |fromGraphs| + 1 {
      ComplexPosted(g, fromGraphs, to, r.trace);
    } else if !(|r.trace| > 0 && Fetch(r.trace[|r.trace| - 1]).Fail?) {
      SourceLookup(c, g, fromGraphs, |r.trace|);
    }
  }

  /** Source `i` is looked up under `g`'s service and section. */
  lemma SourceLookup(c: Client, g: Value, fromGraphs: seq<Text>, i: nat)
    requires i < |fromGraphs|
    ensures var service := NameOf(Field(g, "service_name"));
      var section := NameOf(Field(g, "section_name"));
      LookupPath(c, Sources(g, fromGraphs)[i]).Ok? ==>
        && service.Ok? && section.Ok?
        && LookupPath(c, Sources(g, fromGraphs)[i]).value == TriplePath(c, "/api", service.value, section.value, Some(fromGraphs[i]))
    ensures LookupPath(c, Sources(g, fromGraphs)[i]).Fail? <==> PlaceOf(g).Fail?
    ensures PlaceOf(g).Fail? ==> LookupPath(c, Sources(g, fromGraphs)[i]).error == PlaceOf(g).error
  {
    SourcesFields(g, fromGraphs, "");
  }

  /** The payload built from the sources and target drawn for `g`. */
  lemma ComplexPosted(g: Value, fromGraphs: seq<Text>, to: Text, trace: seq<Exchange>)
    ensures PostsComplex(Json(ComplexPayload(Target(g, to), Components(Sources(g, fromGraphs), trace))), g, fromGraphs, to, trace)
  {
    var froms := Sources(g, fromGraphs);
    var data := Components(froms, trace);
    SourcesFields(g, fromGraphs, to);
    forall i | 0 <= i < |data|
      ensures data[i] == Component(froms[i], if i < |trace| then IdOf(trace[i]) else Null)
    {
    }
  }

  /** The call one action makes inside `exec`. */
  function Perform<S>(c: Client, remote: Remote<S>, s: S, a: Action): (r: Run<S, Value>)
    ensures !a.Combine? && NamesOf(a.g).Fail? ==> r == Run(s, [], Fail(NamesOf(a.g).error))
    ensures (a.RemoveGraph? || a.RemoveComplex?) ==> |r.trace| <= 1
    ensures (a.RemoveGraph? || a.RemoveComplex?) && NamesOf(a.g).Ok? ==>
      var n := NamesOf(a.g).value;
      var ep := if a.RemoveGraph? then DeleteGraph(n.0, n.1, n.2) else DeleteComplex(n.0, n.1, n.2);
      |r.trace| == 1 && r.trace[0].request == RequestOf(c, ep) && r.trace[0].request.verb == Post
    ensures (a.RemoveGraph? || a.RemoveComplex?) && NamesOf(a.g).Ok? ==>
      var n := NamesOf(a.g).value;
      r == Call(c, remote, s, if a.RemoveGraph? then DeleteGraph(n.0, n.1, n.2) else DeleteComplex(n.0, n.1, n.2))
    ensures a.Recolor? && NamesOf(a.g).Ok? ==>
      var n := NamesOf(a.g).value;
      r == EditGraph(c, remote, s, n.0, n.1, n.2, ColorParams(a.color))
    ensures a.Combine? ==> r == CreateComplex(c, remote, s, Sources(a.g, a.fromGraphs), Target(a.g, a.to))
    ensures Answers(remote, s, r.trace, r.server)
    ensures Shaped(c, r.trace)
  {
    match a
    case Combine(g, fromGraphs, to) => CreateComplex(c, remote, s, Sources(g, fromGraphs), Target(g, to))
    case _ =>
      match NamesOf(a.g)
      case Fail(err) => Run(s, [], Fail(err))
      case Ok((service, section, graph)) =>
        match a
        case RemoveGraph(_) => Call(c, remote, s, DeleteGraph(service, section, graph))
        case RemoveComplex(_) => Call(c, remote, s, DeleteComplex(service, section, graph))
        case Recolor(_, color) => EditGraph(c, remote, s, service, section, graph, ColorParams(color))
  }

  /** Whenever a recolouring gets as far as posting, the properties posted
      carry the chosen colour and the fixed display settings, whatever the
      graph had before. */
  lemma RecolorPostsColor<S>(c: Client, remote: Remote<S>, s: S, g: Value, color: Text)
    ensures var r := Perform(c, remote, s, Recolor(g, color));
      |r.trace| == 2 ==> r.trace[1].request.verb == Post && PostsColor(r.trace[1].request.body, color)
  {
    var r := Perform(c, remote, s, Recolor(g, color));
    if NamesOf(g).Ok? {
      var n := NamesOf(g).value;
      assert r == EditGraph(c, remote, s, n.0, n.1, n.2, ColorParams(color));
      EditPostsMerged(c, remote, s, n.0, n.1, n.2, ColorParams(color));
      if |r.trace| == 2 {
        ColorParamsKeys(color, Fetch(r.trace[0]).value);
      }
    }
  }

  /** The edit posts the fetched properties merged with the new ones. */
  lemma EditPostsMerged<S>(c: Client, remote: Remote<S>, s: S, service: Option<Text>, section: Option<Text>, graph: Option<Text>, params: Props)
    ensures var r := EditGraph(c, remote, s, service, section, graph, params);
      |r.trace| == 2 ==>
        && Fetch(r.trace[0]).Ok?
        && r.trace[1].request.verb == Post
        && r.trace[1].request.body == Json(Obj(UpdateParams(Fetch(r.trace[0]).value, params)))
  {
  }

  /** A JSON body that sets `color` with the fixed display settings and an
      empty `meta`. */
  predicate PostsColor(body: Body, color: Text)
  {
    && body.Json? && body.value.Obj?
    && var fields := body.value.fields;
    && Lookup(fields, "color") == Str(color)
    && Lookup(fields, "unit") == Str("count")
    && Lookup(fields, "sort") == Int(1)
    && Lookup(fields, "adjust") == Str("/")
    && Lookup(fields, "adjustval") == Str("1")
    && Lookup(fields, "meta") == Str("")
  }

  /** The merged properties of a recolouring. */
  lemma ColorParamsKeys(color: Text, data: Props)
    ensures PostsColor(Json(Obj(UpdateParams(data, ColorParams(color)))), color)
  {
    var params := ColorParams(color);
    assert "color" in params && "unit" in params && "sort" in params && "adjust" in params && "adjustval" in params;
    assert "meta" !in params;
  }

  /** The step every command hands to `exec`. */
  function Step<S>(c: Client, remote: Remote<S>): (S, Action) -> Run<S, Value>
  {
    (s, a) => Perform(c, remote, s, a)
  }

  // ---------------------------------------------------------------------------
  // Choosing the calls
  // ---------------------------------------------------------------------------

  /** The calls chosen for a listing, one at most per entry, in order. */
  function Plan(gs: seq<Value>, choose: Value -> Option<Action>): (r: seq<Action>)
    ensures |r| <= |gs|
  {
    if |gs| == 0 then []
    else (match choose(gs[0]) case Some(a) => [a] case None => []) + Plan(gs[1..], choose)
  }

  /** An action is planned exactly when some entry chose it. */
  lemma {:induction false} PlanMembers(gs: seq<Value>, choose: Value -> Option<Action>, a: Action)
    ensures a in Plan(gs, choose) <==> exists i :: 0 <= i < |gs| && choose(gs[i]) == Some(a)
  {
    if |gs| > 0 {
      PlanMembers(gs[1..], choose, a);
      if exists i :: 1 <= i < |gs| && choose(gs[i]) == Some(a) {
        var i :| 1 <= i < |gs| && choose(gs[i]) == Some(a);
        assert choose(gs[1..][i - 1]) == Some(a);
      }
      if exists i :: 0 <= i < |gs[1..]| && choose(gs[1..][i]) == Some(a) {
        var i :| 0 <= i < |gs[1..]| && choose(gs[1..][i]) == Some(a);
        assert choose(gs[i + 1]) == Some(a);
      }
    }
  }

  /** `setup_colors`: a graph is recoloured when its name is one of the keys. */
  function ColorChoice(colors: map<Text, Text>, g: Value): (r: Option<Action>)
  {
    match Field(g, "graph_name")
    case Str(t) => if t in colors then Some(Recolor(g, colors[t])) else None
    case _ => None
  }

  /** `setup_complex`: a complex graph is drawn next to every graph named
      like the first source (nil when there is none). */
  function ComplexChoice(fromGraphs: seq<Text>, to: Text, g: Value): (r: Option<Action>)
  {
    var first := if |fromGraphs| > 0 then Str(fromGraphs[0]) else Null;
    if Field(g, "graph_name") == first then Some(Combine(g, fromGraphs, to)) else None
  }

  /** Every action planned from a listing is for one of its entries. */
  lemma PlanFromEntries(gs: seq<Value>, choose: Value -> Option<Action>, f: Filters)
    requires forall i :: 0 <= i < |gs| ==> Matches(gs[i], f)
    requires forall i :: 0 <= i < |gs| ==> choose(gs[i]).Some? ==> choose(gs[i]).value.g == gs[i]
    ensures forall a :: a in Plan(gs, choose) ==> Matches(a.g, f)
  {
    forall a | a in Plan(gs, choose) ensures Matches(a.g, f) {
      PlanMembers(gs, choose, a);
      var i :| 0 <= i < |gs| && choose(gs[i]) == Some(a);
      assert a.g == gs[i];
    }
  }

  // ---------------------------------------------------------------------------
  // The commands
  // ---------------------------------------------------------------------------

  /** What a command did: the server's final state, every exchange in order,
      the calls it made inside `exec` with what each returned or raised, and
      the error that ended the command early, if one did. */
  datatype CommandRun<S> = CommandRun(server: S, trace: seq<Exchange>, actions: seq<Action>,
                                      outcomes: seq<Result<Value>>, aborted: Option<Error>)
  {
    /** What the command wrote to standard error. */
    function Log(): seq<Text>
    {
      Reports(outcomes)
    }
  }

  /** A listing exchange that returned an array. */
  predicate Listed(x: Exchange)
  {
    x.reply.Response? && x.reply.status == 200 && x.reply.json.Arr?
  }

  /** How many entries are announced before the first whose names cannot
      be escaped (the `puts "Delete #{e ...}"` outside `exec`). */
  function Announced(gs: seq<Value>): (n: nat)
    ensures n <= |gs|
    ensures forall i :: 0 <= i < n ==> NamesOf(gs[i]).Ok?
    ensures n < |gs| ==> NamesOf(gs[n]).Fail?
  {
    if |gs| == 0 || NamesOf(gs[0]).Fail? then 0 else 1 + Announced(gs[1..])
  }

  function Removal(complexes: bool, g: Value): Action
  {
    if complexes then RemoveComplex(g) else RemoveGraph(g)
  }

  function Removals(complexes: bool, gs: seq<Value>): (r: seq<Action>)
    ensures |r| == |gs|
    ensures forall i :: 0 <= i < |gs| ==> r[i] == Removal(complexes, gs[i])
  {
    seq(|gs|, i requires 0 <= i < |gs| => Removal(complexes, gs[i]))
  }

  /** The error a listing exchange that returned no array raises: the
      reply's own error, or a type error for a 200 that is not an array. */
  function ListingError(x: Exchange): Error
  {
    if Classify(x.request.uri, x.reply).Fail? then Classify(x.request.uri, x.reply).error else NotAList
  }

  /** The command's own listing failed, so it ends before any call. */
  function ListingFailed<S>(listed: Run<S, seq<Value>>): CommandRun<S>
    requires listed.result.Fail?
  {
    CommandRun(listed.server, listed.trace, [], [], Some(listed.result.error))
  }

  /** Run the chosen calls after a successful listing. */
  function Follow<S>(c: Client, remote: Remote<S>, listed: Run<S, seq<Value>>, actions: seq<Action>, aborted: Option<Error>): (r: CommandRun<S>)
    ensures listed.trace <= r.trace
    ensures r.actions == actions && |r.outcomes| == |actions| && r.aborted == aborted
    ensures var session := ExecAll(Step(c, remote), listed.server, actions);
      r.trace == listed.trace + session.Trace() && r.outcomes == session.outcomes && r.server == session.Final()
  {
    var session := ExecAll(Step(c, remote), listed.server, actions);
    CommandRun(session.Final(), listed.trace + session.Trace(), actions, session.outcomes, aborted)
  }

  /** The calls of a sweep over the listed entries `gs`: the entries in
      order, up to the first that cannot be announced when not silent. */
  ghost predicate Swept<S>(gs: seq<Value>, complexes: bool, silent: bool, r: CommandRun<S>)
  {
    && |r.actions| <= |gs|
    && (forall i :: 0 <= i < |r.actions| ==> r.actions[i] == Removal(complexes, gs[i]))
    && (silent ==> r.aborted.None?)
    && (!silent ==> forall i :: 0 <= i < |r.actions| ==> NamesOf(gs[i]).Ok?)
    && (r.aborted.None? <==> |r.actions| == |gs|)
    && (r.aborted.Some? ==> |r.actions| < |gs| && NamesOf(gs[|r.actions|]).Fail?
                            && r.aborted == Some(NamesOf(gs[|r.actions|]).error))
  }

  /** `r` is the listing request `req` as `remote` answered it from `s`,
      followed by the guarded calls `r.actions` made one after the other
      from the state the listing left: the exchanges after the listing,
      the outcomes and the final state are those of making these calls. */
  ghost predicate Executed<S>(c: Client, remote: Remote<S>, s: S, req: Request, r: CommandRun<S>)
  {
    var session := ExecAll(Step(c, remote), remote(s, req).0, r.actions);
    && r.trace == [Exchange(req, remote(s, req).1)] + session.Trace()
    && r.outcomes == session.outcomes
    && r.server == session.Final()
  }

  /** `delete_graphs` (or `delete_complexes`) on the entries the listing
      returned: every listed entry is removed, each announced first unless
      silent; an entry whose names cannot be announced ends the command. */
  function Sweep<S>(c: Client, remote: Remote<S>, s: S, complexes: bool, target: Filters, silent: bool): (r: CommandRun<S>)
    ensures |r.trace| >= 1
    ensures !complexes ==> r.trace[0].request == GetRequest(c, GraphListPath)
    ensures complexes ==> r.trace[0].request == GetRequest(c, ComplexListPath)
    ensures !Listed(r.trace[0]) ==> r.actions == [] && r.aborted == Some(ListingError(r.trace[0]))
    ensures Listed(r.trace[0]) ==> Swept(Select(r.trace[0].reply.json.items, target), complexes, silent, r)
    ensures forall i :: 0 <= i < |r.actions| ==> Matches(r.actions[i].g, target)
    ensures |r.outcomes| == |r.actions|
    ensures Executed(c, remote, s, GetRequest(c, if complexes then ComplexListPath else GraphListPath), r)
  {
    var listed := FilteredList(c, remote, s, if complexes then ComplexListPath else GraphListPath, target);
    match listed.result
    case Fail(_) => ListingFailed(listed)
    case Ok(gs) => Removing(c, remote, listed, complexes, target, silent)
  }

  /** The removals after a successful listing. */
  function Removing<S>(c: Client, remote: Remote<S>, listed: Run<S, seq<Value>>, complexes: bool, target: Filters, silent: bool): (r: CommandRun<S>)
    requires listed.result.Ok?
    requires forall i :: 0 <= i < |listed.result.value| ==> Matches(listed.result.value[i], target)
    ensures listed.trace <= r.trace
    ensures Swept(listed.result.value, complexes, silent, r)
    ensures forall i :: 0 <= i < |r.actions| ==> Matches(r.actions[i].g, target)
    ensures |r.outcomes| == |r.actions|
  {
    var gs := listed.result.value;
    var n := if silent then |gs| else Announced(gs);
    var r := Follow(c, remote, listed, Removals(complexes, gs[..n]), if n < |gs| then Some(NamesOf(gs[n]).error) else None);
    RemovalsSwept(gs, complexes, silent, target, r);
    r
  }

  /** The removals of the announced prefix of `gs` are a sweep of `gs`. */
  lemma RemovalsSwept<S>(gs: seq<Value>, complexes: bool, silent: bool, target: Filters, r: CommandRun<S>)
    requires forall i :: 0 <= i < |gs| ==> Matches(gs[i], target)
    requires var n := if silent then |gs| else Announced(gs);
      && r.actions == Removals(complexes, gs[..n])
      && r.aborted == (if n < |gs| then Some(NamesOf(gs[n]).error) else None)
    ensures Swept(gs, complexes, silent, r)
    ensures forall i :: 0 <= i < |r.actions| ==> Matches(r.actions[i].g, target)
  {
    var n := if silent then |gs| else Announced(gs);
    assert |r.actions| == n;
    forall i | 0 <= i < n
      ensures r.actions[i] == Removal(complexes, gs[i]) && Matches(r.actions[i].g, target)
    {
      assert gs[..n][i] == gs[i];
    }
  }

  /** `delete`: remove the graphs under the page, then the complex graphs. */
  function Delete<S>(c: Client, remote: Remote<S>, s: S, target: Filters, silent: bool): (r: CommandRun<S>)
    ensures |r.trace| >= 1 && r.trace[0].request == GetRequest(c, GraphListPath)
    ensures RemovalsUnder(r.actions, target)
    ensures |r.outcomes| == |r.actions|
    ensures var graphs := Sweep(c, remote, s, false, target, silent);
      r == if graphs.aborted.Some? then graphs else Then(graphs, Sweep(c, remote, graphs.server, true, target, silent))
  {
    var graphs := Sweep(c, remote, s, false, target, silent);
    SweepRemoves(c, remote, s, false, target, silent);
    if graphs.aborted.Some? then
      RemovalsUnderThen(graphs.actions, [], target);
      assert graphs.actions + [] == graphs.actions;
      graphs
    else
      var complexes := Sweep(c, remote, graphs.server, true, target, silent);
      SweepRemoves(c, remote, graphs.server, true, target, silent);
      RemovalsUnderThen(graphs.actions, complexes.actions, target);
      Then(graphs, complexes)
  }

  /** Every action removes an entry under the filters, and no graph is
      removed after a complex graph. */
  ghost predicate RemovalsUnder(actions: seq<Action>, target: Filters)
  {
    && (forall i :: 0 <= i < |actions| ==> Matches(actions[i].g, target))
    && (forall i :: 0 <= i < |actions| ==> actions[i].RemoveGraph? || actions[i].RemoveComplex?)
    && (forall i, j :: 0 <= i < j < |actions| && actions[i].RemoveComplex? ==> actions[j].RemoveComplex?)
  }

  lemma RemovalsUnderThen(graphs: seq<Action>, complexes: seq<Action>, target: Filters)
    requires forall i :: 0 <= i < |graphs| ==> Matches(graphs[i].g, target) && graphs[i].RemoveGraph?
    requires forall i :: 0 <= i < |complexes| ==> Matches(complexes[i].g, target) && complexes[i].RemoveComplex?
    ensures RemovalsUnder(graphs + complexes, target)
  {
    var all := graphs + complexes;
    assert forall i :: 0 <= i < |graphs| ==> all[i] == graphs[i];
    assert forall i :: |graphs| <= i < |all| ==> all[i] == complexes[i - |graphs|];
  }

  /** The complex graphs are listed only once the graphs have all been
      removed: an entry that cannot be announced ends `delete` before. A
      listing that fails ends `delete` with that listing's error. */
  lemma DeleteSequence<S>(c: Client, remote: Remote<S>, s: S, target: Filters, silent: bool)
    ensures var graphs := Sweep(c, remote, s, false, target, silent);
      var r := Delete(c, remote, s, target, silent);
      && graphs.trace <= r.trace && graphs.actions <= r.actions
      && (graphs.aborted.Some? ==> r == graphs)
      && (!Listed(r.trace[0]) ==> r.actions == [] && r.aborted == Some(ListingError(r.trace[0])))
      && (graphs.aborted.None? ==>
            && |r.trace| > |graphs.trace| && r.trace[|graphs.trace|].request == GetRequest(c, ComplexListPath)
            && (!Listed(r.trace[|graphs.trace|]) ==>
                  r.actions == graphs.actions && r.aborted == Some(ListingError(r.trace[|graphs.trace|]))))
  {
    var graphs := Sweep(c, remote, s, false, target, silent);
    if graphs.aborted.None? {
      var complexes := Sweep(c, remote, graphs.server, true, target, silent);
      assert Delete(c, remote, s, target, silent) == Then(graphs, complexes);
      assert complexes.actions == [] ==> graphs.actions + complexes.actions == graphs.actions;
    }
  }

  /** One command run followed by another. */
  function Then<S>(first: CommandRun<S>, second: CommandRun<S>): (r: CommandRun<S>)
    ensures first.trace <= r.trace && first.actions <= r.actions && first.outcomes <= r.outcomes
    ensures |first.trace| > 0 ==> r.trace[0] == first.trace[0]
    ensures |r.actions| == |first.actions| + |second.actions| && |r.outcomes| == |first.outcomes| + |second.outcomes|
    ensures forall i :: 0 <= i < |first.actions| ==> r.actions[i] == first.actions[i]
    ensures forall i :: |first.actions| <= i < |r.actions| ==> r.actions[i] == second.actions[i - |first.actions|]
    ensures |second.trace| > 0 ==> |r.trace| > |first.trace| && r.trace[|first.trace|] == second.trace[0]
    ensures r.aborted == second.aborted
  {
    CommandRun(second.server, first.trace + second.trace, first.actions + second.actions,
               first.outcomes + second.outcomes, second.aborted)
  }

  /** A sweep of graphs only removes graphs, a sweep of complex graphs only
      complex graphs. */
  lemma SweepRemoves<S>(c: Client, remote: Remote<S>, s: S, complexes: bool, target: Filters, silent: bool)
    ensures var r := Sweep(c, remote, s, complexes, target, silent);
      forall i :: 0 <= i < |r.actions| ==> r.actions[i] == Removal(complexes, r.actions[i].g)
  {
    var r := Sweep(c, remote, s, complexes, target, silent);
    if Listed(r.trace[0]) {
      var gs := Select(r.trace[0].reply.json.items, target);
      assert Swept(gs, complexes, silent, r);
    }
  }

  /** `color`: recolour every listed graph whose name has a colour. */
  function Color<S>(c: Client, remote: Remote<S>, s: S, target: Filters, colors: map<Text, Text>): (r: CommandRun<S>)
    ensures |r.trace| >= 1 && r.trace[0].request == GetRequest(c, GraphListPath)
    ensures r.aborted.Some? <==> !Listed(r.trace[0])
    ensures r.aborted.Some? ==> r.actions == [] && r.aborted == Some(ListingError(r.trace[0]))
    ensures Listed(r.trace[0]) ==>
      r.actions == Plan(Select(r.trace[0].reply.json.items, target), g => ColorChoice(colors, g))
    ensures forall a :: a in r.actions ==> Matches(a.g, target)
    ensures |r.outcomes| == |r.actions|
    ensures Executed(c, remote, s, GetRequest(c, GraphListPath), r)
  {
    var listed := ListGraph(c, remote, s, target);
    match listed.result
    case Fail(_) => ListingFailed(listed)
    case Ok(gs) =>
      PlanFromEntries(gs, g => ColorChoice(colors, g), target);
      Follow(c, remote, listed, Plan(gs, g => ColorChoice(colors, g)), None)
  }

  /** `create_complex`: draw the complex graph next to every listed graph
      named like the first source. */
  function CreateComplexCommand<S>(c: Client, remote: Remote<S>, s: S, target: Filters, fromGraphs: seq<Text>, to: Text): (r: CommandRun<S>)
    ensures |r.trace| >= 1 && r.trace[0].request == GetRequest(c, GraphListPath)
    ensures r.aborted.Some? <==> !Listed(r.trace[0])
    ensures r.aborted.Some? ==> r.actions == [] && r.aborted == Some(ListingError(r.trace[0]))
    ensures Listed(r.trace[0]) ==>
      r.actions == Plan(Select(r.trace[0].reply.json.items, target), g => ComplexChoice(fromGraphs, to, g))
    ensures forall a :: a in r.actions ==> Matches(a.g, target)
    ensures |r.outcomes| == |r.actions|
    ensures Executed(c, remote, s, GetRequest(c, GraphListPath), r)
  {
    var listed := ListGraph(c, remote, s, target);
    match listed.result
    case Fail(_) => ListingFailed(listed)
    case Ok(gs) =>
      PlanFromEntries(gs, g => ComplexChoice(fromGraphs, to, g), target);
      Follow(c, remote, listed, Plan(gs, g => ComplexChoice(fromGraphs, to, g)), None)
  }

  /** A graph is recoloured exactly when its name is a key of the colour
      map, and with that key's colour. */
  lemma ColorChoiceExact(colors: map<Text, Text>, g: Value, a: Action)
    ensures ColorChoice(colors, g) == Some(a) <==>
      exists t :: Field(g, "graph_name") == Str(t) && t in colors && a == Recolor(g, colors[t])
  {
  }

  /** A complex graph is drawn next to `g` exactly when `g` is named like
      the first source, and with the sources and target placed beside it. */
  lemma ComplexChoiceExact(fromGraphs: seq<Text>, to: Text, g: Value, a: Action)
    ensures ComplexChoice(fromGraphs, to, g) == Some(a) <==>
      && a == Combine(g, fromGraphs, to)
      && (if |fromGraphs| > 0 then Field(g, "graph_name") == Str(fromGraphs[0]) else Field(g, "graph_name") == Null)
  {
  }

  // ---------------------------------------------------------------------------
  // Every exchange is the server's answer
  // ---------------------------------------------------------------------------

  /** The guarded calls, made one after the other, leave a trace the server
      answered, ending in the session's final state. */
  lemma {:induction false} ExecAllAnswers<S>(c: Client, remote: Remote<S>, s: S, actions: seq<Action>)
    ensures Answers(remote, s, ExecAll(Step(c, remote), s, actions).Trace(), ExecAll(Step(c, remote), s, actions).Final())
    decreases |actions|
  {
    if |actions| > 0 {
      var step := Step(c, remote);
      var first := step(s, actions[0]);
      assert first == Perform(c, remote, s, actions[0]);
      var rest := ExecAll(step, first.server, actions[1..]);
      ExecAllAnswers(c, remote, first.server, actions[1..]);
      var r := ExecAll(step, s, actions);
      assert r == Session([s] + rest.states, [first.trace] + rest.traces, [first.result] + rest.outcomes);
      FlattenCons(first.trace, rest.traces);
      LastCons(s, rest.states);
      AnswersAppend(remote, s, first.trace, first.server, rest.Trace(), rest.Final());
    }
  }

  /** A command run made as `Executed` describes was answered, exchange by
      exchange, by the server, and leaves it in the state it reports. */
  lemma ExecutedAnswers<S>(c: Client, remote: Remote<S>, s: S, req: Request, r: CommandRun<S>)
    requires Executed(c, remote, s, req, r)
    ensures Answers(remote, s, r.trace, r.server)
  {
    var s1 := remote(s, req).0;
    var session := ExecAll(Step(c, remote), s1, r.actions);
    ExecAllAnswers(c, remote, s1, r.actions);
    assert Answers(remote, s, [Exchange(req, remote(s, req).1)], s1);
    AnswersAppend(remote, s, [Exchange(req, remote(s, req).1)], s1, session.Trace(), session.Final());
  }

  /** `delete`'s two sweeps talk to the same server, the second from where
      the first left it. */
  lemma DeleteAnswers<S>(c: Client, remote: Remote<S>, s: S, target: Filters, silent: bool)
    ensures Answers(remote, s, Delete(c, remote, s, target, silent).trace, Delete(c, remote, s, target, silent).server)
  {
    var graphs := Sweep(c, remote, s, false, target, silent);
    ExecutedAnswers(c, remote, s, GetRequest(c, GraphListPath), graphs);
    if graphs.aborted.None? {
      var complexes := Sweep(c, remote, graphs.server, true, target, silent);
      ExecutedAnswers(c, remote, graphs.server, GetRequest(c, ComplexListPath), complexes);
      AnswersAppend(remote, s, graphs.trace, graphs.server, complexes.trace, complexes.server);
    }
  }

  // ---------------------------------------------------------------------------
  // Every request carries the client's header and base URI
  // ---------------------------------------------------------------------------

  lemma {:induction false} ExecAllShaped<S>(c: Client, remote: Remote<S>, s: S, actions: seq<Action>)
    ensures Shaped(c, ExecAll(Step(c, remote), s, actions).Trace())
    decreases |actions|
  {
    if |actions| > 0 {
      var step := Step(c, remote);
      var first := step(s, actions[0]);
      assert first == Perform(c, remote, s, actions[0]);
      var rest := ExecAll(step, first.server, actions[1..]);
      ExecAllShaped(c, remote, first.server, actions[1..]);
      assert ExecAll(step, s, actions).traces == [first.trace] + rest.traces;
      FlattenCons(first.trace, rest.traces);
      ShapedAppend(c, first.trace, rest.Trace());
    }
  }

  lemma ExecutedShaped<S>(c: Client, remote: Remote<S>, s: S, req: Request, r: CommandRun<S>)
    requires Executed(c, remote, s, req, r)
    requires req.header == ExtHeader(c) && c.baseUri <= req.uri
    ensures Shaped(c, r.trace)
  {
    var s1 := remote(s, req).0;
    ExecAllShaped(c, remote, s1, r.actions);
    ShapedAppend(c, [Exchange(req, remote(s, req).1)], ExecAll(Step(c, remote), s1, r.actions).Trace());
  }

  /** Every request the three commands send, the listings and the guarded
      calls alike, carries the Keep-Alive header exactly when keep-alive is
      on and goes to a URI under the base URI. */
  lemma CommandsShaped<S>(c: Client, remote: Remote<S>, s: S, target: Filters, silent: bool,
                          colors: map<Text, Text>, fromGraphs: seq<Text>, to: Text)
    ensures Shaped(c, Delete(c, remote, s, target, silent).trace)
    ensures Shaped(c, Color(c, remote, s, target, colors).trace)
    ensures Shaped(c, CreateComplexCommand(c, remote, s, target, fromGraphs, to).trace)
  {
    var graphs := Sweep(c, remote, s, false, target, silent);
    ExecutedShaped(c, remote, s, GetRequest(c, GraphListPath), graphs);
    if graphs.aborted.None? {
      var complexes := Sweep(c, remote, graphs.server, true, target, silent);
      ExecutedShaped(c, remote, graphs.server, GetRequest(c, ComplexListPath), complexes);
      ShapedAppend(c, graphs.trace, complexes.trace);
    }
    ExecutedShaped(c, remote, s, GetRequest(c, GraphListPath), Color(c, remote, s, target, colors));
    ExecutedShaped(c, remote, s, GetRequest(c, GraphListPath), CreateComplexCommand(c, remote, s, target, fromGraphs, to));
  }
}

=== FILE: escape.dfy ===
/** Percent-encoding of path segments (section 2.1 of RFC 3986) as the
    client's `e` does it: Ruby's `CGI.escape`, whose space becomes `+`,
    followed by rewriting every `+` to `%20`; and the inverse used by the
    command-line front end, `CGI.unescape` after rewriting `%20` to `+`. */
module Escape {
  import opened Bytes

  /** Bytes `CGI.escape` leaves alone. Whether `~` is among them depends on
      the Ruby version, so it is a parameter. */
  predicate Unreserved(b: Octet, tilde: bool)
  {
    || ('a' <= b <= 'z') || ('A' <= b <= 'Z') || ('0' <= b <= '9')
    || b == '_' || b == '.' || b == '-'
    || (tilde && b == '~')
  }

  predicate IsUpperHex(c: Octet)
  {
    ('0' <= c <= '9') || ('A' <= c <= 'F')
  }

  function HexDigit(n: nat): (c: Octet)
    requires n < 16
    ensures IsUpperHex(c)
  {
    if n < 10 then ('0' as int + n) as char else ('A' as int + n - 10) as char
  }

  /** The value of a hexadecimal digit in either case, as `CGI.unescape`
      reads it. */
  function HexValue(c: Octet): (r: Option<nat>)
    ensures r.Some? ==> r.value < 16
  {
    if '0' <= c <= '9' then Some(c as int - '0' as int)
    else if 'a' <= c <= 'f' then Some(c as int - 'a' as int + 10)
    else if 'A' <= c <= 'F' then Some(c as int - 'A' as int + 10)
    else None
  }

  lemma HexValueOfDigit(n: nat)
    requires n < 16
    ensures HexValue(HexDigit(n)) == Some(n)
  {
  }

  /** `%` followed by the two upper-case hex digits of `b`. */
  function Triplet(b: Octet): Text
  {
    ['%', HexDigit(b as int / 16), HexDigit(b as int % 16)]
  }

  // ---------------------------------------------------------------------------
  // Encoding
  // ---------------------------------------------------------------------------

  /** `CGI.escape` of one byte. */
  function CgiEscapeOctet(b: Octet, tilde: bool): Text
  {
    if Unreserved(b, tilde) then [b]
    else if b == ' ' then ['+']
    else Triplet(b)
  }

  /** Ruby's `CGI.escape`, byte by byte. */
  function CgiEscape(s: Text, tilde: bool): Text
  {
    if |s| == 0 then [] else CgiEscapeOctet(s[0], tilde) + CgiEscape(s[1..], tilde)
  }

  /** The client's `e` on a string: `CGI.escape(str).gsub('+', '%20')`. */
  function Encode(s: Text, tilde: bool): Text
  {
    ReplaceAll(CgiEscape(s, tilde), "+", "%20")
  }

  /** The client's `e`: nil stays nil. */
  function E(name: Option<Text>, tilde: bool): (r: Option<Text>)
    ensures r.None? <==> name.None?
    ensures name.Some? ==> Decode(r.value) == name.value
    ensures name.Some? ==> forall i :: 0 <= i < |r.value| ==> r.value[i] !in " +/"
  {
    match name
    case None => None
    case Some(s) =>
      DecodeEncode(s, tilde);
      EncodeAlphabet(s, tilde);
      Some(Encode(s, tilde))
  }

  /** Reference definition of `e`: each byte on its own, space as `%20`. */
  function SegmentOctet(b: Octet, tilde: bool): Text
  {
    if Unreserved(b, tilde) then [b]
    else Triplet(b)
  }

  function EncodeReference(s: Text, tilde: bool): Text
  {
    if |s| == 0 then [] else SegmentOctet(s[0], tilde) + EncodeReference(s[1..], tilde)
  }

  /** `e` encodes every byte independently: unreserved bytes stay, every other
      byte (space included) becomes `%XY`. */
  lemma {:induction false} EncodeIsBytewise(s: Text, tilde: bool)
    ensures Encode(s, tilde) == EncodeReference(s, tilde)
  {
    if |s| > 0 {
      EncodeIsBytewise(s[1..], tilde);
      var b := s[0];
      ReplaceOneByteAppend(CgiEscapeOctet(b, tilde), CgiEscape(s[1..], tilde), '+', "%20");
      if Unreserved(b, tilde) {
        assert ReplaceAll([b], "+", "%20") == [b] by {
          assert ReplaceAll([b][1..], "+", "%20") == [];
        }
      } else if b == ' ' {
        assert ReplaceAll(['+'], "+", "%20") == "%20" by {
          assert ReplaceAll(['+'][1..], "+", "%20") == [];
        }
        assert Triplet(' ') == "%20";
      } else {
        var t := Triplet(b);
        assert ReplaceAll(t, "+", "%20") == t by {
          assert ReplaceAll(t[2..], "+", "%20") == t[2..] by {
            assert ReplaceAll(t[3..], "+", "%20") == [];
          }
          assert t[1..][1..] == t[2..];
        }
      }
    }
  }

  /** The bytes `e` may produce. */
  predicate SafeOctet(c: Octet, tilde: bool)
  {
    Unreserved(c, tilde) || c == '%' || IsUpperHex(c)
  }

  lemma {:induction false} ReferenceAlphabet(s: Text, tilde: bool)
    ensures forall i :: 0 <= i < |EncodeReference(s, tilde)| ==> SafeOctet(EncodeReference(s, tilde)[i], tilde)
  {
    if |s| > 0 {
      ReferenceAlphabet(s[1..], tilde);
    }
  }

  /** Every byte of an encoded segment is unreserved, `%` or an upper-case hex
      digit; in particular no space, `+` or `/` ever appears. */
  lemma EncodeAlphabet(s: Text, tilde: bool)
    ensures forall i :: 0 <= i < |Encode(s, tilde)| ==> SafeOctet(Encode(s, tilde)[i], tilde)
    ensures forall i :: 0 <= i < |Encode(s, tilde)| ==> Encode(s, tilde)[i] !in " +/"
  {
    EncodeIsBytewise(s, tilde);
    ReferenceAlphabet(s, tilde);
  }

  /** A string made only of unreserved bytes is its own encoding. */
  lemma {:induction false} EncodeUnreserved(s: Text, tilde: bool)
    requires forall i :: 0 <= i < |s| ==> Unreserved(s[i], tilde)
    ensures Encode(s, tilde) == s
  {
    EncodeIsBytewise(s, tilde);
    ReferenceUnreserved(s, tilde);
  }

  lemma {:induction false} ReferenceUnreserved(s: Text, tilde: bool)
    requires forall i :: 0 <= i < |s| ==> Unreserved(s[i], tilde)
    ensures EncodeReference(s, tilde) == s
  {
    if |s| > 0 {
      ReferenceUnreserved(s[1..], tilde);
      assert [s[0]] + s[1..] == s;
    }
  }

  // ---------------------------------------------------------------------------
  // Decoding
  // ---------------------------------------------------------------------------

  /** The `%XY` step of `CGI.unescape`: every `%` followed by two hex digits
      (either case) becomes that byte; any other byte is kept. */
  function PercentDecode(s: Text): Text
    decreases |s|
  {
    if |s| >= 3 && s[0] == '%' && HexValue(s[1]).Some? && HexValue(s[2]).Some? then
      [(HexValue(s[1]).value * 16 + HexValue(s[2]).value) as char] + PercentDecode(s[3..])
    else if |s| == 0 then []
    else [s[0]] + PercentDecode(s[1..])
  }

  /** Ruby's `CGI.unescape`: `+` means space, then `%XY` escapes. */
  function Unescape(s: Text): Text
  {
    PercentDecode(Translate(s, '+', ' '))
  }

  /** How the command-line front end (and the test helper `u`) read a
      segment back: `CGI.unescape(p.gsub('%20', '+'))`. */
  function Decode(s: Text): Text
  {
    Unescape(ReplaceAll(s, "%20", "+"))
  }

  lemma TripletDecodes(b: Octet, rest: Text)
    ensures PercentDecode(Triplet(b) + rest) == [b] + PercentDecode(rest)
  {
    var t := Triplet(b) + rest;
    HexValueOfDigit(b as int / 16);
    HexValueOfDigit(b as int % 16);
    assert t[3..] == rest;
  }

  /** One escaped byte followed by anything: the `%20` rewrite only touches
      the escape of a space. */
  lemma SegmentRewriteUndone(b: Octet, tilde: bool, rest: Text)
    ensures ReplaceAll(SegmentOctet(b, tilde) + rest, "%20", "+")
         == CgiEscapeOctet(b, tilde) + ReplaceAll(rest, "%20", "+")
  {
    var x := SegmentOctet(b, tilde) + rest;
    if Unreserved(b, tilde) {
      assert x[0] == b && b != '%';
      assert x[1..] == rest;
    } else if b == ' ' {
      assert "%20" <= x;
      assert x[3..] == rest;
    } else {
      TripletRewriteUndone(b, rest);
    }
  }

  lemma TripletRewriteUndone(b: Octet, rest: Text)
    requires b != ' '
    ensures ReplaceAll(Triplet(b) + rest, "%20", "+") == Triplet(b) + ReplaceAll(rest, "%20", "+")
  {
    var t := Triplet(b);
    var x := t + rest;
    var x1 := x[1..];
    var x2 := x1[1..];
    assert x1 == t[1..] + rest;
    assert x2 == t[2..] + rest;
    assert x2[1..] == rest;
    assert x2[0] == t[2] && IsUpperHex(t[2]);
    assert ReplaceAll(x2, "%20", "+") == [t[2]] + ReplaceAll(rest, "%20", "+");
    assert x1[0] == t[1] && IsUpperHex(t[1]);
    assert ReplaceAll(x1, "%20", "+") == [t[1]] + ReplaceAll(x2, "%20", "+");
    assert t != "%20";
    assert ReplaceAll(x, "%20", "+") == [t[0]] + ReplaceAll(x1, "%20", "+");
    assert [t[0]] + ([t[1]] + ([t[2]] + ReplaceAll(rest, "%20", "+"))) == t + ReplaceAll(rest, "%20", "+");
  }

  /** Undoing the `%20` rewrite turns `e`'s output back into `CGI.escape`'s. */
  lemma {:induction false} SpaceRewriteUndone(s: Text, tilde: bool)
    ensures ReplaceAll(EncodeReference(s, tilde), "%20", "+") == CgiEscape(s, tilde)
  {
    if |s| > 0 {
      SpaceRewriteUndone(s[1..], tilde);
      SegmentRewriteUndone(s[0], tilde, EncodeReference(s[1..], tilde));
    }
  }

  lemma {:induction false} UnescapeCgiEscape(s: Text, tilde: bool)
    ensures Unescape(CgiEscape(s, tilde)) == s
  {
    if |s| > 0 {
      UnescapeCgiEscape(s[1..], tilde);
      var b := s[0];
      var c := CgiEscapeOctet(b, tilde);
      var rest := CgiEscape(s[1..], tilde);
      var tr := Translate(c + rest, '+', ' ');
      assert tr == Translate(c, '+', ' ') + Translate(rest, '+', ' ');
      if Unreserved(b, tilde) {
        assert tr[1..] == Translate(rest, '+', ' ');
      } else if b == ' ' {
        assert tr[1..] == Translate(rest, '+', ' ');
      } else {
        assert Translate(c, '+', ' ') == Triplet(b);
        TripletDecodes(b, Translate(rest, '+', ' '));
      }
      assert [b] + s[1..] == s;
    }
  }

  /** Decoding inverts `e`: a name survives a trip through a URL path. */
  lemma DecodeEncode(s: Text, tilde: bool)
    ensures Decode(Encode(s, tilde)) == s
  {
    EncodeIsBytewise(s, tilde);
    SpaceRewriteUndone(s, tilde);
    UnescapeCgiEscape(s, tilde);
  }

  /** Hence `e` never maps two names to the same segment. */
  lemma EncodeInjective(s: Text, t: Text, tilde: bool)
    requires Encode(s, tilde) == Encode(t, tilde)
    ensures s == t
  {
    DecodeEncode(s, tilde);
    DecodeEncode(t, tilde);
  }
}

=== FILE: http.dfy ===
/** JSON values as the client sees them after decoding, and the transport
    adapter: how a request is shaped (`get_json`, `post_json`, `post_query`)
    and how an HTTP status is classified into the client's error classes
    (`handle_error`, `error_message`). */
module Http {
  import opened Bytes

  /** A decoded JSON value (numbers are integers in this model). */
  datatype Value =
    | Null
    | Bool(b: bool)
    | Int(i: int)
    | Str(s: Text)
    | Arr(items: seq<Value>)
    | Obj(fields: map<Text, Value>)

  /** A property map of a graph or a complex graph (a Ruby Hash). */
  type Props = map<Text, Value>

  /** `h[key]` on a Hash: nil when the key is absent. */
  function Lookup(m: Props, key: Text): Value
  {
    if key in m then m[key] else Null
  }

  /** `v[key]` on a listing entry; entries that are not objects are read as
      having no fields. */
  function Field(v: Value, key: Text): Value
  {
    match v
    case Obj(m) => Lookup(m, key)
    case _ => Null
  }

  /** Ruby's `"#{v}"` for the scalar values an id can take. */
  function Interpolate(v: Value): Text
  {
    match v
    case Null => []
    case Bool(b) => if b then "true" else "false"
    case Int(i) => Decimal(i)
    case Str(s) => s
    case _ => []
  }

  // ---------------------------------------------------------------------------
  // Requests and replies
  // ---------------------------------------------------------------------------

  datatype Verb = Get | Post

  datatype Body =
    | NoBody
    | Json(value: Value)       // post_json: JSON.generate(data)
    | Form(fields: Props)      // post_query: form-encoded pairs

  datatype Request = Request(verb: Verb, uri: Text, header: seq<(Text, Text)>, body: Body)

  /** What the transport hands back: an HTTP response with its raw body and
      the body as decoded JSON, or a transport-level exception. */
  datatype Reply =
    | Response(status: int, raw: Text, json: Value)
    | Unreachable(exception: Text, detail: Text)

  /** A server whose state `S` evolves with each request it answers. */
  type Remote<!S> = (S, Request) -> (S, Reply)

  // ---------------------------------------------------------------------------
  // Errors
  // ---------------------------------------------------------------------------

  /** `GrowthForecast::NotFound` and `GrowthForecast::AlreadyExists` are
      subclasses of `GrowthForecast::Error`; `RequestFailed` is a plain
      `GrowthForecast::Error`. `Transport` is an exception from the HTTP
      library, passed through. `Malformed` stands for the Ruby type errors
      raised when a value of the wrong shape is indexed or escaped. */
  datatype Kind = NotFound | AlreadyExists | RequestFailed | Transport(className: Text) | Malformed

  datatype Error = Error(kind: Kind, message: Text)
  {
    /** `e.is_a?(GrowthForecast::Error)`. */
    predicate IsClientError()
    {
      kind.NotFound? || kind.AlreadyExists? || kind.RequestFailed?
    }

    /** `e.class` as the command-line front end prints it. */
    function ClassName(): Text
    {
      match kind
      case NotFound => "GrowthForecast::NotFound"
      case AlreadyExists => "GrowthForecast::AlreadyExists"
      case RequestFailed => "GrowthForecast::Error"
      case Transport(c) => c
      case Malformed => "TypeError"
    }
  }

  datatype Result<+T> = Ok(value: T) | Fail(error: Error)

  /** `error_message`: status, request URI and body, tab separated. */
  function ErrorMessage(status: int, uri: Text, raw: Text): Text
  {
    "status:" + Decimal(status) + ['\t'] + "uri:" + uri + ['\t'] + "message:" + raw
  }

  /** The message splits back on tabs into its status, URI and body, as long
      as the URI and the body contain no tab themselves; the status field is
      always the first. */
  lemma ErrorMessageParses(status: int, uri: Text, raw: Text)
    ensures var fs := Fields(ErrorMessage(status, uri, raw), '\t');
      fs[0] == "status:" + Decimal(status)
      && ('\t' !in uri ==> |fs| >= 2 && fs[1] == "uri:" + uri)
      && ('\t' !in uri && '\t' !in raw ==> fs == ["status:" + Decimal(status), "uri:" + uri, "message:" + raw])
  {
    var a: Text := "status:" + Decimal(status);
    var b: Text := "uri:" + uri;
    var c: Text := "message:" + raw;
    assert ErrorMessage(status, uri, raw) == a + ['\t'] + b + ['\t'] + c;
    ErrorMessageFields(a, b, c, status, uri, raw);
  }

  lemma ErrorMessageFields(a: Text, b: Text, c: Text, status: int, uri: Text, raw: Text)
    requires a == "status:" + Decimal(status) && b == "uri:" + uri && c == "message:" + raw
    ensures Fields(a + ['\t'] + b + ['\t'] + c, '\t')[0] == a
    ensures '\t' !in uri ==> |Fields(a + ['\t'] + b + ['\t'] + c, '\t')| >= 2 && Fields(a + ['\t'] + b + ['\t'] + c, '\t')[1] == b
    ensures '\t' !in uri && '\t' !in raw ==> Fields(a + ['\t'] + b + ['\t'] + c, '\t') == [a, b, c]
  {
    DecimalHasNoTab(status);
    assert '\t' !in a;
    assert a + ['\t'] + b + ['\t'] + c == a + ['\t'] + (b + ['\t'] + c);
    FieldsAfterField(a, '\t', b + ['\t'] + c);
    if '\t' !in uri {
      assert '\t' !in b;
      FieldsAfterField(b, '\t', c);
      if '\t' !in raw {
        assert '\t' !in c;
        FieldsWithoutSep(c, '\t');
      }
    }
  }

  lemma DecimalHasNoTab(n: int)
    ensures '\t' !in Decimal(n)
  {
    var d := Decimal(n);
    assert forall i :: 0 <= i < |d| ==> d[i] != '\t' by {
      assert forall i :: 0 < i < |d| ==> IsDigit(d[i]);
    }
  }

  /** `handle_error`: only status 200 is a success; 404 and 409 have their
      own error classes and every other status is a plain client error. A
      transport exception propagates unchanged. */
  function Classify(uri: Text, reply: Reply): (r: Result<Value>)
    ensures r.Ok? <==> reply.Response? && reply.status == 200
    ensures r.Ok? ==> r.value == reply.json
    ensures reply.Response? && reply.status == 404 ==> r.Fail? && r.error.kind == NotFound
    ensures reply.Response? && reply.status == 409 ==> r.Fail? && r.error.kind == AlreadyExists
    ensures reply.Response? && reply.status !in {200, 404, 409} ==> r.Fail? && r.error.kind == RequestFailed
    ensures reply.Response? && r.Fail? ==>
      r.error.IsClientError() && r.error.message == ErrorMessage(reply.status, uri, reply.raw)
    ensures reply.Unreachable? ==> r == Fail(Error(Transport(reply.exception), reply.detail))
  {
    match reply
    case Unreachable(exception, detail) => Fail(Error(Transport(exception), detail))
    case Response(status, raw, json) =>
      if status == 200 then Ok(json)
      else if status == 404 then Fail(Error(NotFound, ErrorMessage(status, uri, raw)))
      else if status == 409 then Fail(Error(AlreadyExists, ErrorMessage(status, uri, raw)))
      else Fail(Error(RequestFailed, ErrorMessage(status, uri, raw)))
  }

  // ---------------------------------------------------------------------------
  // The client's transport state and a single exchange
  // ---------------------------------------------------------------------------

  /** The client's configuration: the base URI, whether to ask for a
      persistent connection, and whether this Ruby's `CGI.escape` keeps `~`. */
  datatype Client = Client(baseUri: Text, keepalive: bool, tildeUnreserved: bool)

  /** The extra header every request carries. */
  function ExtHeader(c: Client): (h: seq<(Text, Text)>)
    ensures c.keepalive <==> h == [("Connection", "Keep-Alive")]
    ensures !c.keepalive <==> h == []
  {
    if c.keepalive then [("Connection", "Keep-Alive")] else []
  }

  /** One request and the reply it received. */
  datatype Exchange = Exchange(request: Request, reply: Reply)

  /** The outcome of a sequence of exchanges: the server's new state, the
      exchanges in the order they happened, and the value or the error
      raised. */
  datatype Run<S, +T> = Run(server: S, trace: seq<Exchange>, result: Result<T>)

  /** `trace` is what `remote` answers when sent the trace's requests in
      order starting from state `s`: every reply is the server's, each
      request meets the state the previous one left, and `final` is the
      state after the last. */
  ghost predicate Answers<S>(remote: Remote<S>, s: S, trace: seq<Exchange>, final: S)
    decreases |trace|
  {
    if |trace| == 0 then final == s
    else
      && trace[0].reply == remote(s, trace[0].request).1
      && Answers(remote, remote(s, trace[0].request).0, trace[1..], final)
  }

  /** Two answered traces, the second from where the first left the
      server, make one answered trace. */
  lemma {:induction false} AnswersAppend<S>(remote: Remote<S>, s: S, a: seq<Exchange>, mid: S, b: seq<Exchange>, final: S)
    requires Answers(remote, s, a, mid) && Answers(remote, mid, b, final)
    ensures Answers(remote, s, a + b, final)
    decreases |a|
  {
    if |a| == 0 {
      assert a + b == b;
    } else {
      assert (a + b)[0] == a[0] && (a + b)[1..] == a[1..] + b;
      AnswersAppend(remote, remote(s, a[0].request).0, a[1..], mid, b, final);
    }
  }

  /** Every request of `trace` carries the client's extra header and goes
      to a URI under the client's base URI. */
  predicate Shaped(c: Client, trace: seq<Exchange>)
  {
    forall i :: 0 <= i < |trace| ==> trace[i].request.header == ExtHeader(c) && c.baseUri <= trace[i].request.uri
  }

  lemma ShapedAppend(c: Client, a: seq<Exchange>, b: seq<Exchange>)
    requires Shaped(c, a) && Shaped(c, b)
    ensures Shaped(c, a + b)
  {
    forall i | 0 <= i < |a + b|
      ensures (a + b)[i].request.header == ExtHeader(c) && c.baseUri <= (a + b)[i].request.uri
    {
      if i >= |a| {
        assert (a + b)[i] == b[i - |a|];
      }
    }
  }

  /** Issue one request and classify the reply (`@res = client.get/post`,
      then `handle_error(@res)`). */
  function Send<S>(remote: Remote<S>, s: S, req: Request): (r: Run<S, Value>)
    ensures r.trace == [Exchange(req, remote(s, req).1)]
    ensures r.server == remote(s, req).0
    ensures r.result == Classify(req.uri, remote(s, req).1)
    ensures Answers(remote, s, r.trace, r.server)
  {
    var (s', reply) := remote(s, req);
    Run(s', [Exchange(req, reply)], Classify(req.uri, reply))
  }

  /** The request `get_json(path)` issues: a GET of the base URI followed
      by the path. */
  function GetRequest(c: Client, path: Text): (req: Request)
    ensures req.verb == Get && req.body == NoBody && req.header == ExtHeader(c)
    ensures c.baseUri <= req.uri && req.uri[|c.baseUri|..] == path
  {
    Request(Get, c.baseUri + path, ExtHeader(c), NoBody)
  }

  /** The request `post_json(path, data)` issues. */
  function PostJsonRequest(c: Client, path: Text, data: Value): (req: Request)
    ensures req.verb == Post && req.body == Json(data) && req.header == ExtHeader(c)
    ensures c.baseUri <= req.uri && req.uri[|c.baseUri|..] == path
  {
    Request(Post, c.baseUri + path, ExtHeader(c), Json(data))
  }

  /** The request `post_query(path, data)` issues. */
  function PostQueryRequest(c: Client, path: Text, data: Props): (req: Request)
    ensures req.verb == Post && req.body == Form(data) && req.header == ExtHeader(c)
    ensures c.baseUri <= req.uri && req.uri[|c.baseUri|..] == path
  {
    Request(Post, c.baseUri + path, ExtHeader(c), Form(data))
  }

  /** `last_request_uri`: the URI of the most recent request, if any. */
  function LastRequestUri(trace: seq<Exchange>): Option<Text>
  {
    if |trace| == 0 then None else Some(trace[|trace| - 1].request.uri)
  }
}

=== FILE: listing.dfy ===
/** The client-side views over a fetched listing: exact-match filtering
    (`list_graph`, `list_complex`) and the grouping helpers `list_section`
    and `list_service`. */
module Listing {
  import opened Bytes
  import opened Http

  // ---------------------------------------------------------------------------
  // Filtering
  // ---------------------------------------------------------------------------

  /** The optional filters of `list_graph` / `list_complex`; `None` is nil. */
  datatype Filters = Filters(service: Option<Text>, section: Option<Text>, graph: Option<Text>)

  const NoFilters := Filters(None, None, None)

  /** An entry passes one filter when the filter is nil or the entry's field
      equals it exactly. */
  predicate FieldMatches(g: Value, key: Text, f: Option<Text>)
  {
    f.None? || Field(g, key) == Str(f.value)
  }

  predicate Matches(g: Value, f: Filters)
  {
    && FieldMatches(g, "service_name", f.service)
    && FieldMatches(g, "section_name", f.section)
    && FieldMatches(g, "graph_name", f.graph)
  }

  /** Reference definition: the entries that pass every filter, in order. */
  function Select(gs: seq<Value>, f: Filters): (r: seq<Value>)
    ensures |r| <= |gs|
    ensures forall i :: 0 <= i < |r| ==> Matches(r[i], f)
  {
    if |gs| == 0 then [] else (if Matches(gs[0], f) then [gs[0]] else []) + Select(gs[1..], f)
  }

  /** One line of the source: `graphs = graphs.select {|g| g[key] == name } if name`. */
  function SelectBy(gs: seq<Value>, key: Text, name: Option<Text>): seq<Value>
  {
    if name.None? then gs
    else if |gs| == 0 then []
    else (if Field(gs[0], key) == Str(name.value) then [gs[0]] else []) + SelectBy(gs[1..], key, name)
  }

  /** The three filter lines of `list_graph`, applied in turn. */
  function ApplyFilters(gs: seq<Value>, f: Filters): seq<Value>
  {
    SelectBy(SelectBy(SelectBy(gs, "service_name", f.service), "section_name", f.section), "graph_name", f.graph)
  }

  lemma {:induction false} SelectByAppend(a: seq<Value>, b: seq<Value>, key: Text, name: Option<Text>)
    ensures SelectBy(a + b, key, name) == SelectBy(a, key, name) + SelectBy(b, key, name)
  {
    if name.Some? && |a| > 0 {
      SelectByAppend(a[1..], b, key, name);
      var ab := a + b;
      assert ab[0] == a[0] && ab[1..] == a[1..] + b;
      var head := if Field(a[0], key) == Str(name.value) then [a[0]] else [];
      calc {
        SelectBy(ab, key, name);
        head + SelectBy(a[1..] + b, key, name);
        head + (SelectBy(a[1..], key, name) + SelectBy(b, key, name));
        { AppendAssoc(head, SelectBy(a[1..], key, name), SelectBy(b, key, name)); }
        (head + SelectBy(a[1..], key, name)) + SelectBy(b, key, name);
      }
    } else if name.Some? {
      assert a + b == b;
    }
  }

  lemma SelectByOne(g: Value, key: Text, name: Option<Text>)
    ensures SelectBy([g], key, name) == if FieldMatches(g, key, name) then [g] else []
  {
    if name.Some? {
      assert SelectBy([g][1..], key, name) == [];
    }
  }

  /** The sequential filters of the source are the conjunction of the
      filters: applying them in turn equals one pass that keeps exactly the
      entries matching every non-nil filter. */
  lemma {:induction false} FiltersCompose(gs: seq<Value>, f: Filters)
    ensures ApplyFilters(gs, f) == Select(gs, f)
  {
    if |gs| > 0 {
      FiltersCompose(gs[1..], f);
      var g := gs[0];
      assert gs == [g] + gs[1..];
      var s1 := SelectBy([g], "service_name", f.service);
      SelectByAppend([g], gs[1..], "service_name", f.service);
      SelectByOne(g, "service_name", f.service);
      var s2 := SelectBy(s1, "section_name", f.section);
      SelectByAppend(s1, SelectBy(gs[1..], "service_name", f.service), "section_name", f.section);
      if s1 == [g] { SelectByOne(g, "section_name", f.section); }
      SelectByAppend(s2, SelectBy(SelectBy(gs[1..], "service_name", f.service), "section_name", f.section), "graph_name", f.graph);
      if s2 == [g] { SelectByOne(g, "graph_name", f.graph); }
      if s1 == [] { assert SelectBy(s1, "section_name", f.section) == []; }
      if s2 == [] { assert SelectBy(s2, "graph_name", f.graph) == []; }
    }
  }

  /** `a` is an order-preserving subsequence of `b`. */
  predicate IsSubsequence<T(==)>(a: seq<T>, b: seq<T>)
    decreases |b|
  {
    if |a| == 0 then true
    else if |b| == 0 then false
    else if a[0] == b[0] then IsSubsequence(a[1..], b[1..])
    else IsSubsequence(a, b[1..])
  }

  lemma {:induction false} SelectIsSubsequence(gs: seq<Value>, f: Filters)
    ensures IsSubsequence(Select(gs, f), gs)
  {
    if |gs| > 0 {
      SelectIsSubsequence(gs[1..], f);
      if Matches(gs[0], f) {
        assert Select(gs, f)[1..] == Select(gs[1..], f);
      } else {
        assert Select(gs, f) == Select(gs[1..], f);
      }
    }
  }

  /** Filtering keeps every matching entry as often as it occurs and drops
      every other one. */
  lemma {:induction false} SelectContents(gs: seq<Value>, f: Filters, x: Value)
    ensures multiset(Select(gs, f))[x] == if Matches(x, f) then multiset(gs)[x] else 0
  {
    if |gs| > 0 {
      SelectContents(gs[1..], f, x);
      assert gs == [gs[0]] + gs[1..];
      assert multiset(gs) == multiset([gs[0]]) + multiset(gs[1..]);
    }
  }

  /** With every filter nil the listing is returned unchanged. */
  lemma {:induction false} SelectNoFilters(gs: seq<Value>)
    ensures Select(gs, NoFilters) == gs
  {
    if |gs| > 0 {
      SelectNoFilters(gs[1..]);
      assert [gs[0]] + gs[1..] == gs;
    }
  }

  lemma {:induction false} SelectAllMatching(gs: seq<Value>, f: Filters)
    requires forall i :: 0 <= i < |gs| ==> Matches(gs[i], f)
    ensures Select(gs, f) == gs
  {
    if |gs| > 0 {
      SelectAllMatching(gs[1..], f);
      assert [gs[0]] + gs[1..] == gs;
    }
  }

  /** Filtering twice with the same filters changes nothing. */
  lemma SelectIdempotent(gs: seq<Value>, f: Filters)
    ensures Select(Select(gs, f), f) == Select(gs, f)
  {
    SelectAllMatching(Select(gs, f), f);
  }

  // ---------------------------------------------------------------------------
  // First-seen de-duplication
  // ---------------------------------------------------------------------------

  predicate Distinct(xs: seq<Value>)
  {
    forall i, j :: 0 <= i < j < |xs| ==> xs[i] != xs[j]
  }

  /** `h[x] ||= true` on an insertion-ordered Hash, seen through `h.keys`. */
  function AppendNew(xs: seq<Value>, x: Value): seq<Value>
  {
    if x in xs then xs else xs + [x]
  }

  /** The distinct elements of `xs` in the order they are first seen. */
  function Dedup(xs: seq<Value>): seq<Value>
  {
    if |xs| == 0 then [] else AppendNew(Dedup(xs[..|xs| - 1]), xs[|xs| - 1])
  }

  /** Dedup keeps exactly the elements of its input, each once. */
  lemma {:induction false} DedupMembers(xs: seq<Value>)
    ensures forall x :: x in Dedup(xs) <==> x in xs
    ensures Distinct(Dedup(xs))
    ensures |Dedup(xs)| <= |xs|
  {
    if |xs| > 0 {
      var n := |xs| - 1;
      DedupMembers(xs[..n]);
      assert xs == xs[..n] + [xs[n]];
    }
  }

  /** Index of the first occurrence of `x` in `xs`. */
  function FirstIndex(xs: seq<Value>, x: Value): (i: nat)
    requires x in xs
    ensures i < |xs| && xs[i] == x && x !in xs[..i]
  {
    if xs[0] == x then 0
    else
      var j := FirstIndex(xs[1..], x);
      assert xs[..j + 1] == [xs[0]] + xs[1..][..j];
      j + 1
  }

  lemma FirstIndexOfPrefix(xs: seq<Value>, n: nat, x: Value)
    requires n <= |xs| && x in xs[..n]
    ensures FirstIndex(xs, x) == FirstIndex(xs[..n], x)
  {
    var k := FirstIndex(xs[..n], x);
    assert xs[..n][..k] == xs[..k];
  }

  /** Dedup lists each element in the order of its first occurrence. */
  lemma {:induction false} DedupFirstSeen(xs: seq<Value>)
    ensures forall i, j :: 0 <= i < j < |Dedup(xs)| ==>
      && Dedup(xs)[i] in xs && Dedup(xs)[j] in xs
      && FirstIndex(xs, Dedup(xs)[i]) < FirstIndex(xs, Dedup(xs)[j])
  {
    if |xs| > 0 {
      var n := |xs| - 1;
      var init := xs[..n];
      DedupFirstSeen(init);
      DedupMembers(xs);
      var d := Dedup(xs);
      var d0 := Dedup(init);
      DedupMembers(init);
      forall k | 0 <= k < |d0|
        ensures FirstIndex(xs, d0[k]) == FirstIndex(init, d0[k])
      {
        FirstIndexOfPrefix(xs, n, d0[k]);
      }
      if xs[n] !in d0 {
        assert d == d0 + [xs[n]];
        assert FirstIndex(xs, xs[n]) == n;
      } else {
        assert d == d0;
      }
      forall i, j | 0 <= i < j < |d|
        ensures d[i] in xs && d[j] in xs && FirstIndex(xs, d[i]) < FirstIndex(xs, d[j])
      {
        assert d[i] == d0[i];
        if j < |d0| {
          assert d[j] == d0[j];
        } else {
          assert FirstIndex(init, d0[i]) < n;
        }
      }
    } else {
      assert Dedup(xs) == [];
    }
  }

  // ---------------------------------------------------------------------------
  // Grouping: list_section and list_service
  // ---------------------------------------------------------------------------

  /** One entry of `list_section`'s result: a service and its sections. */
  datatype Group = Group(service: Value, sections: seq<Value>)

  function Keys(groups: seq<Group>): (ks: seq<Value>)
    ensures |ks| == |groups|
    ensures forall i :: 0 <= i < |groups| ==> ks[i] == groups[i].service
  {
    if |groups| == 0 then [] else [groups[0].service] + Keys(groups[1..])
  }

  /** One step of `list_section`'s loop: `services[svc] ||= {}` followed by
      `services[svc][sec] ||= true`, on an insertion-ordered Hash. */
  function AddToGroups(groups: seq<Group>, svc: Value, sec: Value): seq<Group>
  {
    if |groups| == 0 then [Group(svc, [sec])]
    else if groups[0].service == svc then [Group(svc, AppendNew(groups[0].sections, sec))] + groups[1..]
    else [groups[0]] + AddToGroups(groups[1..], svc, sec)
  }

  function ServiceOf(g: Value): Value { Field(g, "service_name") }
  function SectionOf(g: Value): Value { Field(g, "section_name") }

  /** `list_section`'s loop over the (already filtered) graphs. */
  function GroupSections(gs: seq<Value>): seq<Group>
  {
    if |gs| == 0 then []
    else
      var g := gs[|gs| - 1];
      AddToGroups(GroupSections(gs[..|gs| - 1]), ServiceOf(g), SectionOf(g))
  }

  /** The service of every graph, in listing order. */
  function ServiceColumn(gs: seq<Value>): (r: seq<Value>)
    ensures |r| == |gs| && forall i :: 0 <= i < |gs| ==> r[i] == ServiceOf(gs[i])
  {
    if |gs| == 0 then [] else ServiceColumn(gs[..|gs| - 1]) + [ServiceOf(gs[|gs| - 1])]
  }

  /** The section of every graph of service `svc`, in listing order. */
  function SectionColumn(gs: seq<Value>, svc: Value): seq<Value>
  {
    if |gs| == 0 then []
    else
      var g := gs[|gs| - 1];
      SectionColumn(gs[..|gs| - 1], svc) + (if ServiceOf(g) == svc then [SectionOf(g)] else [])
  }

  /** Reference definition of `list_section`: every distinct service in
      first-seen order, each with its distinct sections in first-seen order. */
  function Grouping(gs: seq<Value>): seq<Group>
  {
    var services := Dedup(ServiceColumn(gs));
    seq(|services|, i requires 0 <= i < |services| => Group(services[i], Dedup(SectionColumn(gs, services[i]))))
  }

  /** `list_service`: `services.keys` of the one-level Hash. */
  function ServiceList(gs: seq<Value>): seq<Value>
  {
    Dedup(ServiceColumn(gs))
  }

  lemma {:induction false} AddToGroupsKeys(groups: seq<Group>, svc: Value, sec: Value)
    ensures Keys(AddToGroups(groups, svc, sec)) == AppendNew(Keys(groups), svc)
  {
    if |groups| > 0 {
      var ks := Keys(groups);
      assert ks == [ks[0]] + Keys(groups[1..]);
      if groups[0].service != svc {
        AddToGroupsKeys(groups[1..], svc, sec);
        assert Keys(AddToGroups(groups, svc, sec)) == [groups[0].service] + Keys(AddToGroups(groups[1..], svc, sec));
      } else {
        var r := AddToGroups(groups, svc, sec);
        assert Keys(r) == [svc] + Keys(r[1..]);
        assert r[1..] == groups[1..];
      }
    }
  }

  lemma {:induction false} AddToGroupsSections(groups: seq<Group>, svc: Value, sec: Value, i: nat)
    requires Distinct(Keys(groups)) && i < |groups|
    ensures |AddToGroups(groups, svc, sec)| > i
    ensures AddToGroups(groups, svc, sec)[i].sections ==
      if groups[i].service == svc then AppendNew(groups[i].sections, sec) else groups[i].sections
  {
    var ks := Keys(groups);
    SameElements(Keys(groups[1..]), ks[1..]);
    if groups[0].service != svc && i > 0 {
      AddToGroupsSections(groups[1..], svc, sec, i - 1);
    } else if groups[0].service == svc && i > 0 {
      assert ks[0] != ks[i];
    }
  }

  lemma {:induction false} AddToGroupsNew(groups: seq<Group>, svc: Value, sec: Value)
    requires svc !in Keys(groups)
    ensures |AddToGroups(groups, svc, sec)| == |groups| + 1
    ensures AddToGroups(groups, svc, sec)[|groups|] == Group(svc, [sec])
  {
    if |groups| > 0 {
      assert Keys(groups) == [groups[0].service] + Keys(groups[1..]);
      AddToGroupsNew(groups[1..], svc, sec);
    }
  }

  lemma DedupSnoc(xs: seq<Value>, x: Value)
    ensures Dedup(xs + [x]) == AppendNew(Dedup(xs), x)
  {
    assert (xs + [x])[..|xs|] == xs;
  }

  lemma SectionsSnoc(init: seq<Value>, g: Value, svc: Value)
    ensures Dedup(SectionColumn(init + [g], svc)) ==
      if ServiceOf(g) == svc then AppendNew(Dedup(SectionColumn(init, svc)), SectionOf(g))
      else Dedup(SectionColumn(init, svc))
  {
    var gs := init + [g];
    assert gs[..|init|] == init;
    assert gs[|gs| - 1] == g;
    if ServiceOf(g) == svc {
      assert SectionColumn(gs, svc) == SectionColumn(init, svc) + [SectionOf(g)];
      DedupSnoc(SectionColumn(init, svc), SectionOf(g));
    } else {
      assert SectionColumn(gs, svc) == SectionColumn(init, svc) + [];
      assert SectionColumn(init, svc) + [] == SectionColumn(init, svc);
    }
  }

  lemma SectionColumnEmpty(gs: seq<Value>, svc: Value)
    requires svc !in ServiceColumn(gs)
    ensures SectionColumn(gs, svc) == []
  {
    if |gs| > 0 {
      assert ServiceColumn(gs[..|gs| - 1]) == ServiceColumn(gs)[..|gs| - 1];
      SectionColumnEmpty(gs[..|gs| - 1], svc);
    }
  }

  lemma ServicesSnoc(init: seq<Value>, g: Value)
    ensures Dedup(ServiceColumn(init + [g])) == AppendNew(Dedup(ServiceColumn(init)), ServiceOf(g))
  {
    var gs := init + [g];
    assert gs[..|init|] == init;
    assert ServiceColumn(gs) == ServiceColumn(init) + [ServiceOf(g)];
    DedupSnoc(ServiceColumn(init), ServiceOf(g));
  }

  lemma GroupingAt(gs: seq<Value>, i: nat)
    requires i < |Dedup(ServiceColumn(gs))|
    ensures |Grouping(gs)| == |Dedup(ServiceColumn(gs))|
    ensures Grouping(gs)[i] == Group(Dedup(ServiceColumn(gs))[i], Dedup(SectionColumn(gs, Dedup(ServiceColumn(gs))[i])))
  {
  }

  lemma GroupingSnocKnown(init: seq<Value>, g: Value, i: nat)
    requires i < |Dedup(ServiceColumn(init))|
    ensures |AddToGroups(Grouping(init), ServiceOf(g), SectionOf(g))| > i
    ensures |Grouping(init + [g])| > i
    ensures AddToGroups(Grouping(init), ServiceOf(g), SectionOf(g))[i] == Grouping(init + [g])[i]
  {
    var v, x := ServiceOf(g), SectionOf(g);
    var before := Grouping(init);
    var services0 := Dedup(ServiceColumn(init));
    var sv := services0[i];
    GroupingAt(init, i);
    assert before[i] == Group(sv, Dedup(SectionColumn(init, sv)));
    SameElements(Keys(before), services0);
    ServicesSnoc(init, g);
    var services := Dedup(ServiceColumn(init + [g]));
    assert services[i] == sv;
    GroupingAt(init + [g], i);
    var r := AddToGroups(before, v, x);
    AddToGroupsKeys(before, v, x);
    assert r[i].service == Keys(r)[i] == sv;
    DedupMembers(ServiceColumn(init));
    AddToGroupsSections(before, v, x, i);
    SectionsSnoc(init, g, sv);
  }

  lemma GroupingSnocNew(init: seq<Value>, g: Value)
    requires ServiceOf(g) !in Dedup(ServiceColumn(init))
    ensures |AddToGroups(Grouping(init), ServiceOf(g), SectionOf(g))| > |Dedup(ServiceColumn(init))|
    ensures |Grouping(init + [g])| > |Dedup(ServiceColumn(init))|
    ensures AddToGroups(Grouping(init), ServiceOf(g), SectionOf(g))[|Dedup(ServiceColumn(init))|]
         == Grouping(init + [g])[|Dedup(ServiceColumn(init))|]
  {
    var v, x := ServiceOf(g), SectionOf(g);
    var before := Grouping(init);
    var services0 := Dedup(ServiceColumn(init));
    var n := |services0|;
    assert Keys(before) == services0;
    AddToGroupsNew(before, v, x);
    ServicesSnoc(init, g);
    var services := Dedup(ServiceColumn(init + [g]));
    assert services == services0 + [v];
    GroupingAt(init + [g], n);
    DedupMembers(ServiceColumn(init));
    SectionColumnEmpty(init, v);
    SectionsSnoc(init, g, v);
    assert Dedup(SectionColumn(init, v)) == [];
  }

  /** Processing one more graph updates the reference grouping exactly as
      one iteration of the source's loop does. */
  lemma {:induction false} GroupingSnoc(init: seq<Value>, g: Value)
    ensures Grouping(init + [g]) == AddToGroups(Grouping(init), ServiceOf(g), SectionOf(g))
  {
    var r := AddToGroups(Grouping(init), ServiceOf(g), SectionOf(g));
    var after := Grouping(init + [g]);
    GroupingSnocShape(init, g);
    forall i | 0 <= i < |after|
      ensures r[i] == after[i]
    {
      GroupingSnocAt(init, g, i);
    }
    SameElements(r, after);
  }

  lemma GroupingSnocAt(init: seq<Value>, g: Value, i: nat)
    requires i < |Grouping(init + [g])|
    ensures |AddToGroups(Grouping(init), ServiceOf(g), SectionOf(g))| > i
    ensures AddToGroups(Grouping(init), ServiceOf(g), SectionOf(g))[i] == Grouping(init + [g])[i]
  {
    GroupingSnocShape(init, g);
    if i < |Dedup(ServiceColumn(init))| {
      GroupingSnocKnown(init, g, i);
    } else {
      GroupingSnocNew(init, g);
    }
  }

  /** Sequences with the same elements are equal (stated generically, so
      that the solver does not look inside the elements). */
  lemma SameElements<T>(a: seq<T>, b: seq<T>)
    requires |a| == |b|
    requires forall i :: 0 <= i < |a| ==> a[i] == b[i]
    ensures a == b
  {
  }

  /** The grouping grows by one exactly when the graph brings a new service. */
  lemma {:induction false} GroupingSnocShape(init: seq<Value>, g: Value)
    ensures var n := |Dedup(ServiceColumn(init))|;
      var m := if ServiceOf(g) in Dedup(ServiceColumn(init)) then n else n + 1;
      |Grouping(init + [g])| == m && |AddToGroups(Grouping(init), ServiceOf(g), SectionOf(g))| == m
  {
    GroupingKeys(init);
    GroupingKeys(init + [g]);
    AddToGroupsKeys(Grouping(init), ServiceOf(g), SectionOf(g));
    ServicesSnoc(init, g);
  }

  lemma {:induction false} GroupingKeys(gs: seq<Value>)
    ensures Keys(Grouping(gs)) == Dedup(ServiceColumn(gs))
  {
  }

  /** The fold the source performs computes the reference grouping. */
  lemma {:induction false} GroupSectionsIsGrouping(gs: seq<Value>)
    ensures GroupSections(gs) == Grouping(gs)
  {
    if |gs| > 0 {
      var n := |gs| - 1;
      var init, g := gs[..n], gs[n];
      assert GroupSections(gs) == AddToGroups(GroupSections(init), ServiceOf(g), SectionOf(g));
      GroupSectionsIsGrouping(init);
      GroupingSnoc(init, g);
      assert init + [g] == gs;
    }
  }

  /** A service has a group exactly when some graph has that service, and
      a section is listed under it exactly when some graph has that pair. */
  lemma {:induction false} SectionColumnMembers(gs: seq<Value>, svc: Value, sec: Value)
    ensures sec in SectionColumn(gs, svc) <==>
      exists i :: 0 <= i < |gs| && ServiceOf(gs[i]) == svc && SectionOf(gs[i]) == sec
  {
    if |gs| > 0 {
      var n := |gs| - 1;
      SectionColumnMembers(gs[..n], svc, sec);
      if exists i :: 0 <= i < |gs| && ServiceOf(gs[i]) == svc && SectionOf(gs[i]) == sec {
        var i :| 0 <= i < |gs| && ServiceOf(gs[i]) == svc && SectionOf(gs[i]) == sec;
        if i < n { assert gs[..n][i] == gs[i]; }
      }
      if exists i :: 0 <= i < n && ServiceOf(gs[..n][i]) == svc && SectionOf(gs[..n][i]) == sec {
        var i :| 0 <= i < n && ServiceOf(gs[..n][i]) == svc && SectionOf(gs[..n][i]) == sec;
        assert gs[i] == gs[..n][i];
      }
    }
  }

  /** The properties `list_section` promises of its result. */
  lemma GroupingProperties(gs: seq<Value>)
    ensures var groups := Grouping(gs);
      && Distinct(Keys(groups))
      && (forall svc :: svc in Keys(groups) <==> svc in ServiceColumn(gs))
      && (forall i :: 0 <= i < |groups| ==> |groups[i].sections| > 0 && Distinct(groups[i].sections))
      && (forall i, sec :: 0 <= i < |groups| ==>
            (sec in groups[i].sections <==>
               exists k :: 0 <= k < |gs| && ServiceOf(gs[k]) == groups[i].service && SectionOf(gs[k]) == sec))
  {
    var groups := Grouping(gs);
    var services := Dedup(ServiceColumn(gs));
    DedupMembers(ServiceColumn(gs));
    assert Keys(groups) == services;
    forall i | 0 <= i < |groups|
      ensures |groups[i].sections| > 0 && Distinct(groups[i].sections)
    {
      DedupMembers(SectionColumn(gs, services[i]));
      var k := FirstIndex(ServiceColumn(gs), services[i]);
      SectionColumnMembers(gs, services[i], SectionOf(gs[k]));
      assert SectionOf(gs[k]) in SectionColumn(gs, services[i]);
    }
    forall i, sec | 0 <= i < |groups|
      ensures sec in groups[i].sections <==>
        exists k :: 0 <= k < |gs| && ServiceOf(gs[k]) == groups[i].service && SectionOf(gs[k]) == sec
    {
      DedupMembers(SectionColumn(gs, services[i]));
      SectionColumnMembers(gs, services[i], sec);
    }
  }

  /** `list_service` is the key list of `list_section` over the same graphs. */
  lemma ServicesAreGroupKeys(gs: seq<Value>)
    ensures ServiceList(gs) == Keys(GroupSections(gs))
  {
    GroupSectionsIsGrouping(gs);
  }
}
